=== FILE: README.md ===
# Chunk allocator, vector algebra and Nim first move, in Dafny

This project models three pieces of a C++ coursework repository and proves
properties of the models.

**The pooled chunk allocator** (`chunk_allocator<T>`). Each chunk owns a
4096-byte buffer and an address-ordered list of used fragments. Chunks form a
chain, newest first. Allocator handles share one `chunk_shares` record, which
holds the chain and a handle counter.

- `wrappers.dfy`: the `Option` and `Result` types.
- `chunk.dfy`, module `Chunks`: one chunk.
  - A chunk is a buffer `[data, data + size)` plus a `seq<Fragment>`, head first.
  - Operations: `engage` (first-fit placement), `release` (exact free, prefix
    free, interior split), `split`, `contains` and `empty`.
  - Addresses are naturals, and the null pointer is 0.
  - The engage gap test compares against a pointer difference converted to
    `size_t`. It is modelled modulo 2^64, so a negative gap reads as a huge
    one, as it does in C++.
- `allocator.dfy`, module `ChunkChain`: `allocate`, `deallocate` and
  `chunk_count` over the chain `seq<Chunk>`. `chain[0]` is `shares_->tail`.
  The caller supplies the base address of a chunk that a call creates.
- `handles.dfy`, module `Handles`: the shared record and the handle lifecycle.
  - Records live in a registry keyed by address, and a handle is the address
    of its record.
  - Operations: constructor, copy constructor, `operator=`, destructor,
    `allocate`/`deallocate` through a handle, `reference_count` and
    `chunk_count`.
  - The destructor's record update is `Destroy`. Its teardown loop is the
    method `TearDown`, and `DestroyHandle` runs the two together.
  - A `World` pairs the registry with every live handle. The predicate
    `Counted` says each counter equals its number of live handles.
- `scenarios.dfy`, module `Scenarios`: the allocator scenarios of
  `chuck_allocator/test/test.cpp`, stated over symbolic chunk addresses.

The allocator is modelled as written, including these behaviours:

- Releasing the head fragment with its exact length clears the whole list,
  including the fragments after it. On a well-formed chunk, an exact release
  of any other fragment removes only that fragment. The release loop acts on
  the first fragment that starts at `p`, so after `engage(0)` an empty
  fragment with the same start can hide the real one (`ZeroEngageHidesFragment`).
- A prefix release advances `ptr` but keeps `len`, so the fragment does not
  shrink.
- `split` records a suffix of `len - n` bytes at `ptr + (len - n - (p - ptr))`.
  That suffix is always `p - ptr` bytes longer than what remains after
  `p + n`, so it never equals that range. It starts at `p + n` only when the
  fragment is exactly twice `p + n - ptr` long, and then it runs `p - ptr`
  bytes past the old fragment's end.
- `allocate` creates the first chunk before `engage` can throw.
- A zero-byte request passes every gap test, so `allocate(0)` records an
  empty fragment, possibly one past the end of a full buffer.
- `operator=` never rebinds the assigned handle. Outside self-assignment it
  copies `*this` into a temporary, which is destroyed when the call returns,
  so the records end as they were.

The ordering, disjointness and in-buffer invariants are proved for the
operations that keep them: `engage`, exact non-head release and chunk
unlinking. For prefix release and split, lemmas give concrete chunks on which
the invariant breaks.

**Vector algebra** (`vector_ops.dfy`, module `VectorOps`). This covers
`reverse`, unary and binary `+`/`-`, dot `*`, cross `%`, and element-wise
`|`/`&` on `vector<int>`. Vectors are `seq<int>`, and `seq<bv32>` for the
bitwise operators.

**Nim first move** (`nim.dfy`, module `NimFirstMove`). This covers the
`HeapIndex`, `RocksCount` and `Game` templates.

- `size_t` is the integers below 2^64, with wrap-around subtraction written
  out.
- XOR is defined bit by bit on naturals.
- `Game` takes the nim-sum as its parameter `sum`. `NimSum` is the model's own
  reference for it.
- `GameMoveWins` proves that the move `Game` reports is a winning Nim move
  when `sum` is the nim-sum.

## Model

| member | source | states |
|---|---|---|
| `Chunks.NewChunk` | chuck_allocator/src/chunk_allocator.h:42-44 | A new chunk covers its buffer with no fragments, and it satisfies the invariant whenever its buffer is non-null and its size a `size_t` |
| `Chunks.Distance` | chuck_allocator/src/chunk_allocator.h:77-85 | The gap test's pointer difference as a `size_t`: the true gap when it is not negative, and 2^64 minus the shortfall when it is |
| `Chunks.Engage` | chuck_allocator/src/chunk_allocator.h:63-91 | `engage` throws exactly when `n` exceeds the chunk size. A placement keeps the buffer and records an `n`-byte fragment at the returned address |
| `Chunks.EngageEmptyChunk` | chuck_allocator/src/chunk_allocator.h:68-71 | In a chunk without fragments, the new fragment is `[data, data + n)` and `data` is returned |
| `Chunks.Scan` | chuck_allocator/src/chunk_allocator.h:73-90 | The engage loop places only at the end of a fragment it visited, and the new fragment directly follows that one |
| `Chunks.GapTestIsGap` | chuck_allocator/src/chunk_allocator.h:77-85 | On a well-formed chunk, the `size_t` gap test is the real free space after a fragment (up to its successor or the buffer end), and that space lies between 0 and the chunk size |
| `Chunks.ScanIsFirstFit` | chuck_allocator/src/chunk_allocator.h:73-90 | From any start index, the loop reports no room exactly when no following gap holds `n`. Otherwise it inserts after the first fragment whose gap does |
| `Chunks.EngageIsFirstFit` | chuck_allocator/src/chunk_allocator.h:73-90 | `engage` on a non-empty chunk returns null exactly when no gap (between neighbours or at the tail) holds `n`. Otherwise it inserts at the start of the first gap that does |
| `Chunks.EngagePreservesWellFormed` | chuck_allocator/src/chunk_allocator.h:63-91 | On a sorted, disjoint, in-buffer list, a placement keeps the list so, lies in the buffer, and only inserts the new fragment |
| `Chunks.Split` | chuck_allocator/src/chunk_allocator.h:54-60 | `split` keeps the buffer and the other fragments. The fragment is cut to `p - ptr` bytes, and the new suffix after it is `len - n` bytes long. Its start plus the offset `p - ptr` is `ptr` plus its length |
| `Chunks.ReleaseInterior` | chuck_allocator/src/chunk_allocator.h:54-60 | An interior release cuts the fragment to end at `p` and leaves the rest of the list alone. The suffix is `Fragment(ptr + (len - n - (p - ptr)), len - n)`, which is `p - ptr` bytes longer than what lies after `p + n`. It starts at `p + n` exactly when `len == 2 * (p + n - ptr)` |
| `Chunks.Release` | chuck_allocator/src/chunk_allocator.h:94-133 | `release` keeps the buffer and adds at most one fragment. It leaves the chunk empty exactly when it was empty, or the head has a non-null start `p` and length `n` |
| `Chunks.ReleaseFrom` | chuck_allocator/src/chunk_allocator.h:113-132 | The release loop keeps the buffer, adds at most one fragment, and never empties the chunk |
| `Chunks.ReleaseHeadExact` | chuck_allocator/src/chunk_allocator.h:99-102 | Releasing the head fragment with its exact length empties the chunk, whatever followed it |
| `Chunks.ReleaseExactNonHead` | chuck_allocator/src/chunk_allocator.h:118-121 | Releasing a non-head fragment with its exact length removes that fragment only and keeps the invariant |
| `Chunks.ReleasePrefix` | chuck_allocator/src/chunk_allocator.h:103-105 | A shorter release at a fragment's start moves its start by `n`, keeps its length, and changes nothing else (the same holds for non-head fragments, lines 122-123) |
| `Chunks.ReleaseOverlong` | chuck_allocator/src/chunk_allocator.h:99-126 | A release at a fragment's start that is longer than the fragment changes nothing |
| `Chunks.ReleaseUnmatched` | chuck_allocator/src/chunk_allocator.h:94-133 | When no fragment starts at `p` and none strictly contains `[p, p + n)`, `release` changes nothing |
| `Chunks.EngageReleaseRoundTrip` | chuck_allocator/src/chunk_allocator.h:118-121 | On a well-formed chunk, releasing exactly what `engage` placed gives back the original chunk, for every request size including 0 |
| `Chunks.EngageZero` | chuck_allocator/src/chunk_allocator.h:73-80 | On a well-formed non-empty chunk, `engage(0)` always places an empty fragment right after the head, at the head's non-null end |
| `Chunks.ZeroPlacedRoundTrip` | chuck_allocator/src/chunk_allocator.h:118-121 | The first fit of a zero-byte request is the head, and releasing the empty fragment placed after it restores the chunk |
| `Chunks.PrefixReleaseBreaksWellFormed` | chuck_allocator/src/chunk_allocator.h:103-105 | Some well-formed chunk overlaps its next fragment after a prefix release |
| `Chunks.EngageIntoNegativeGap` | chuck_allocator/src/chunk_allocator.h:77-80 | After such an overlap, the negative gap reads as huge, so `engage` places a fragment inside a live one |
| `Chunks.SplitBreaksWellFormed` | chuck_allocator/src/chunk_allocator.h:55-58 | Some well-formed chunk gets a suffix overlapping the next fragment after an interior release |
| `Chunks.Contains` | chuck_allocator/src/chunk_allocator.h:136-138 | The ownership test `deallocate` uses, on the buffer range `[data, data + size)`. It has no contract of its own; `ContainsFragments` and `OwnerUnique` state what it means for fragments and chains |
| `Chunks.ContainsFragments` | chuck_allocator/src/chunk_allocator.h:136-138 | On a well-formed chunk, `contains` holds for every byte of every fragment |
| `Chunks.Empty` | chuck_allocator/src/chunk_allocator.h:141 | The test that makes `deallocate` unlink a chunk. It has no contract of its own; `Release` states exactly when a release makes a chunk empty |
| `Chunks.ZeroEngageHidesFragment` | chuck_allocator/src/chunk_allocator.h:73-125 | `engage(0)` on `[1, 9) [9, 17)` records an empty fragment at 9 between the two. A later release of the 8 bytes at 9 then frees nothing |
| `ChunkChain.RequestBytes` | chuck_allocator/src/chunk_allocator.h:198 | `sizeof(T) * n` is reduced modulo 2^64, and is exact when it does not overflow |
| `ChunkChain.TryChunks` | chuck_allocator/src/chunk_allocator.h:198-209 | The chunk search takes the first chunk whose `engage` places the request. It finds none exactly when every chunk reports no room, and it fails only when some `engage` throws |
| `ChunkChain.Allocate` | chuck_allocator/src/chunk_allocator.h:194-214 | `allocate` adds at most one chunk and removes none |
| `ChunkChain.EngageNeverThrows` | chuck_allocator/src/chunk_allocator.h:64-66 | On pool-sized chunks, a request of at most a chunk makes no `engage` throw |
| `ChunkChain.AllocateOversized` | chuck_allocator/src/chunk_allocator.h:195-198 | A request larger than a chunk throws `out_of_range`. The chain is unchanged, except that an empty chain has gained its first chunk |
| `ChunkChain.AllocateSearchOrder` | chuck_allocator/src/chunk_allocator.h:194-214 | The newest chunk that can place the request takes it, and nothing else changes. When no chunk can, a new newest chunk holds the request at its start |
| `ChunkChain.AllocateShape` | chuck_allocator/src/chunk_allocator.h:194-214 | A fitting request either lands in one existing chunk or at the start of a new newest chunk |
| `ChunkChain.AllocatePreservesValid` | chuck_allocator/src/chunk_allocator.h:194-214 | For 1 to 4096 bytes on a valid chain, `allocate` never returns null, records the request as a fragment, and keeps every chunk well formed with disjoint buffers |
| `ChunkChain.AllocateZero` | chuck_allocator/src/chunk_allocator.h:194-214 | On a valid chain, `allocate(0)` never returns null. An empty chain gets its first chunk with an empty fragment at its start. Otherwise the newest chunk takes an empty fragment where its head ends, and no chunk is added |
| `ChunkChain.AllocateAfterOversized` | chuck_allocator/src/chunk_allocator.h:194-239 | An oversized first request throws and leaves one chunk with no fragments. A following request of at most a chunk lands at that chunk's start, never at null. Freeing it unlinks the chunk and leaves an empty chain |
| `ChunkChain.Owner` | chuck_allocator/src/chunk_allocator.h:219-221 | The owner is the first chunk, newest first, whose buffer holds `p`. There is none exactly when no chunk holds `p` |
| `ChunkChain.Deallocate` | chuck_allocator/src/chunk_allocator.h:216-239 | `deallocate` removes at most one chunk, and changes nothing when no chunk holds `p` |
| `ChunkChain.DeallocateOwner` | chuck_allocator/src/chunk_allocator.h:216-239 | Only the owning chunk is released. If it empties, it is unlinked, the others keep their order, and the count drops by exactly one |
| `ChunkChain.OwnerUnique` | chuck_allocator/src/chunk_allocator.h:136-138 | In a valid chain, no other chunk's buffer holds an address that one chunk holds |
| `ChunkChain.UnlinkValid` | chuck_allocator/src/chunk_allocator.h:224-232 | Unlinking a chunk, whether the newest or an older one, keeps the chain valid |
| `ChunkChain.DeallocateExactNonHead` | chuck_allocator/src/chunk_allocator.h:118-121 | Freeing a non-head fragment's exact bytes removes only that fragment from its chunk and keeps the chain valid |
| `ChunkChain.DeallocateHeadExact` | chuck_allocator/src/chunk_allocator.h:99-102 | Freeing a head fragment's exact bytes unlinks its chunk, even with other fragments in it. The chain stays valid and is one shorter |
| `ChunkChain.AllocateDeallocateRoundTrip` | chuck_allocator/src/chunk_allocator.h:216-239 | On a valid chain, freeing what `allocate` just returned restores the chain exactly |
| `ChunkChain.Round` | chuck_allocator/test/test.cpp:184-187 | One allocate-then-free round adds at most one chunk and removes at most one |
| `ChunkChain.Churn` | chuck_allocator/test/test.cpp:184-187 | The test's repeated allocate-then-free loop, as `reps` rounds |
| `ChunkChain.ChurnBounds` | chuck_allocator/test/test.cpp:184-187 | On any chain and for any request size, `reps` rounds move the chunk count by at most `reps` either way |
| `ChunkChain.ChurnKeepsChain` | chuck_allocator/test/test.cpp:184-187 | Any number of allocate-then-free rounds of 1 to 4096 bytes leaves a valid chain unchanged |
| `ChunkChain.ZeroAllocateLeaks` | chuck_allocator/src/chunk_allocator.h:194-239 | On a valid chain with one full chunk, `allocate(0)` returns the address one past the buffer and records an empty fragment there. The matching `deallocate` finds no owner, so the chain is not restored |
| `ChunkChain.ChunkCount` | chuck_allocator/src/chunk_allocator.h:248-255 | The counting walk returns the chain length |
| `Handles.Construct` | chuck_allocator/src/chunk_allocator.h:162-166 | A new handle gets its own record, with counter 1 and no chunks. No other record changes |
| `Handles.Copy` | chuck_allocator/src/chunk_allocator.h:168-170 | A copy uses the same record, whose counter goes up by one. The chain and other records are unchanged |
| `Handles.Destroy` | chuck_allocator/src/chunk_allocator.h:183-192 | The counter goes down by one. At zero the record and its chain are released; no other record changes |
| `Handles.TearDown` | chuck_allocator/src/chunk_allocator.h:185-189 | The teardown loop frees every chunk's buffer exactly once, newest first |
| `Handles.DestroyHandle` | chuck_allocator/src/chunk_allocator.h:183-192 | The destructor updates the record as `Destroy` does. It frees every chunk of the chain, newest first, exactly when the last handle goes, and frees nothing otherwise |
| `Handles.Assign` | chuck_allocator/src/chunk_allocator.h:174-179 | `operator=` leaves the registry as it was, whether or not it is self-assignment. The handle it yields is the assigned one |
| `Handles.AllocateVia` | chuck_allocator/src/chunk_allocator.h:194-214 | Allocation through a handle changes only the shared record's chain, by at most one chunk, and keeps its counter |
| `Handles.DeallocateVia` | chuck_allocator/src/chunk_allocator.h:216-239 | Deallocation through a handle changes only the shared record's chain, by at most one chunk, and keeps its counter |
| `Handles.ReferenceCount` | chuck_allocator/src/chunk_allocator.h:257-259 | Reads the shared record's counter. It has no contract of its own; `ReferenceCountIsLive` states what the count means |
| `Handles.ReferenceCountIsLive` | chuck_allocator/src/chunk_allocator.h:257-259 | With exact counting, `reference_count` is the number of live handles using the record, and at least one |
| `Handles.ChunkCountOf` | chuck_allocator/src/chunk_allocator.h:248-255 | `chunk_count` through a handle, on the shared chain. It has no contract of its own; `ChunkChain.ChunkCount` proves the counting walk returns the chain length |
| `Handles.ConstructCounted` | chuck_allocator/src/chunk_allocator.h:162-166 | Constructing keeps every counter equal to its number of live handles, and the new one reads 1 |
| `Handles.CopyCounted` | chuck_allocator/src/chunk_allocator.h:168-170 | Copying keeps the counters exact, and the shared counter gains exactly one |
| `Handles.DestroyCounted` | chuck_allocator/src/chunk_allocator.h:183-192 | Destroying keeps the counters exact. The record survives exactly when other handles remain, and then reads one less |
| `Handles.AssignCounted` | chuck_allocator/src/chunk_allocator.h:174-179 | Assignment leaves the records and every handle's binding as they were |
| `Scenarios.MemoryReuse` | chuck_allocator/test/test.cpp:152-175 | Three blocks of eight `int`s lie 32 bytes apart. Freeing the middle one and allocating again returns its address and restores the chunk |
| `Scenarios.MemoryLeakage` | chuck_allocator/test/test.cpp:177-188 | After the first block, any number of allocate-then-free rounds leaves the one-chunk chain unchanged |
| `Scenarios.BadAllocation` | chuck_allocator/test/test.cpp:190-194 | `allocate(CHUNK_SIZE + 1)` of bytes throws `out_of_range`, after creating the first chunk |
| `Scenarios.ChunkChainAllocations` | chuck_allocator/test/test.cpp:196-213 | The six allocations land at the addresses the test's comments give, spread over three chunks |
| `Scenarios.ChunkChainFrees` | chuck_allocator/test/test.cpp:213-226 | The chunk count goes from 3 to 2, then 1, then 0 over the test's frees |
| `Scenarios.ReferenceCountingScenario` | chuck_allocator/test/test.cpp:262-308 | Handles sharing one record see chunk counts 2 to 7 and reference count 3. After four frees the count is 3, a further copy reads 4, and deleting it gives 3 again |
| `VectorOps.Reverse` | vector_operations/src/vector_ops.h:83-86 | The result has the same length, with element `i` taken from position `len - 1 - i` |
| `VectorOps.ReverseInvolution` | vector_operations/src/vector_ops.h:83-86 | Reversing twice gives the vector back |
| `VectorOps.ReversePermutes` | vector_operations/src/vector_ops.h:83-86 | Reversing keeps the multiset of elements |
| `VectorOps.Plus` | vector_operations/src/vector_ops.h:91-94 | Unary `+` returns an equal vector |
| `VectorOps.Neg` | vector_operations/src/vector_ops.h:99-105 | Unary `-` has the same length, and every element is negated |
| `VectorOps.NegInvolution` | vector_operations/src/vector_ops.h:99-105 | Negating twice gives the vector back |
| `VectorOps.Add` | vector_operations/src/vector_ops.h:110-116 | Binary `+` has the length of `a`, with element sums |
| `VectorOps.AddNeg` | vector_operations/src/vector_ops.h:110-116 | `a + (-a)` is zero everywhere |
| `VectorOps.AddCommutes` | vector_operations/src/vector_ops.h:110-116 | Binary `+` commutes on vectors of equal length |
| `VectorOps.Sub` | vector_operations/src/vector_ops.h:121-127 | Binary `-` has the length of `a`, with element differences |
| `VectorOps.SubIsAddNeg` | vector_operations/src/vector_ops.h:121-127 | `a - b` is `a + (-b)` |
| `VectorOps.SubAdd` | vector_operations/src/vector_ops.h:121-127 | `(a + b) - b` is `a` |
| `VectorOps.Dot` | vector_operations/src/vector_ops.h:132-138 | The accumulation loop returns the sum of `a[i] * b[i]` over the positions of `a`, and 0 for an empty `a` |
| `VectorOps.DotPrefixSymmetric` | vector_operations/src/vector_ops.h:132-138 | The dot product is symmetric |
| `VectorOps.DotPrefixAdd` | vector_operations/src/vector_ops.h:132-138 | The dot product distributes over binary `+` |
| `VectorOps.DotPrefixSquare` | vector_operations/src/vector_ops.h:132-138 | A vector dotted with itself is never negative |
| `VectorOps.Cross` | vector_operations/src/vector_ops.h:143-150 | The cross product has three components |
| `VectorOps.CrossOrthogonal` | vector_operations/src/vector_ops.h:143-150 | The cross product is orthogonal to both arguments |
| `VectorOps.CrossAntiCommutes` | vector_operations/src/vector_ops.h:143-150 | Swapping the arguments negates the cross product |
| `VectorOps.CrossSelf` | vector_operations/src/vector_ops.h:143-150 | A vector crossed with itself is zero |
| `VectorOps.Zip` | vector_operations/src/vector_ops.h:173-178 | The two-input `transform` has the length of `a`, with the operator applied at each position |
| `VectorOps.Or` | vector_operations/src/vector_ops.h:173-178 | The or operator has the length of `a`, with element-wise bitwise or |
| `VectorOps.And` | vector_operations/src/vector_ops.h:183-188 | The and operator has the length of `a`, with element-wise bitwise and |
| `VectorOps.Absorption` | vector_operations/src/vector_ops.h:173-188 | `a` or (`a` and `b`), and `a` and (`a` or `b`), are both `a` |
| `VectorOps.Idempotent` | vector_operations/src/vector_ops.h:173-188 | `a` or `a`, and `a` and `a`, are both `a` |
| `NimFirstMove.Sub` | hw_7_meanwhile_in_the_seventh_galaxy/first_variant/src/game.h:15 | `Head - (Sum ^ Head)` in `size_t`: the true difference, or that plus 2^64 when it would be negative |
| `NimFirstMove.ToSsize` | hw_7_meanwhile_in_the_seventh_galaxy/first_variant/src/game.h:36 | A `size_t` value stored in `ssize_t` is congruent to it modulo 2^64, in range, and unchanged below 2^63 |
| `NimFirstMove.BitXor` | hw_7_meanwhile_in_the_seventh_galaxy/first_variant/src/game.h:15 | `Sum ^ Head` on `size_t` is the bitwise XOR of the two values |
| `NimFirstMove.Selects` | hw_7_meanwhile_in_the_seventh_galaxy/first_variant/src/game.h:15 | The wrapping test `Head - (Sum ^ Head) <= Head` holds exactly when `Sum ^ Head <= Head` |
| `NimFirstMove.HeapIndex` | hw_7_meanwhile_in_the_seventh_galaxy/first_variant/src/game.h:12-22 | The index lies within the heaps. Every earlier heap `h` has `Sum ^ h > h`, and a heap chosen before the last has `Sum ^ h <= h` |
| `NimFirstMove.HeapIndexShift` | hw_7_meanwhile_in_the_seventh_galaxy/first_variant/src/game.h:12-22 | Starting the count at `Index` shifts the result by `Index` |
| `NimFirstMove.RocksRaw` | hw_7_meanwhile_in_the_seventh_galaxy/first_variant/src/game.h:27-37 | The `size_t` rocks count is `h - (Sum ^ h)`, wrapped, for one of the heaps |
| `NimFirstMove.RocksCount` | hw_7_meanwhile_in_the_seventh_galaxy/first_variant/src/game.h:27-37 | `RocksCount` is `h - (Sum ^ h)` for the heap `h` at the index `HeapIndex` reports, read as `ssize_t` |
| `NimFirstMove.RocksFollowHeapIndex` | hw_7_meanwhile_in_the_seventh_galaxy/first_variant/src/game.h:27-37 | `RocksCount` picks the heap `HeapIndex` picks, and yields `h - (Sum ^ h)` for it |
| `NimFirstMove.Game` | hw_7_meanwhile_in_the_seventh_galaxy/first_variant/src/game.h:42-50 | The first player wins exactly when the sum is non-zero. With sum 0 both move constants are -1; otherwise the heap index is in range |
| `NimFirstMove.GameMove` | hw_7_meanwhile_in_the_seventh_galaxy/first_variant/src/game.h:46-49 | With a non-zero sum, the move constants are `HeapIndex` and `h - (Sum ^ h)` for that heap, read as `ssize_t` |
| `NimFirstMove.GameMoveWins` | hw_7_meanwhile_in_the_seventh_galaxy/first_variant/src/game.h:42-50 | When `sum` is the nim-sum and non-zero, the chosen heap has `Sum ^ h < h` and 1 to `h` rocks are taken. The heaps left have nim-sum 0, and the reported count is that number |

## Left out

- `construct`, `destroy` (chunk_allocator.h:241-246) and `rebind` (159-160): placement new, destructor calls and a type alias, with no bookkeeping.
- The byte contents of buffers are not modelled, so neither are the test's `FILL`/`RANGE` checks or the construction test (test.cpp:228-260).
- The `LinkedList` container and the container tests in test.cpp are not part of this model.
- Real heap addresses are not modelled. The base of each new chunk buffer is a parameter. Invariant lemmas require it to be non-null and clear of every live buffer. `new` failing (`bad_alloc`) is not modelled.
- The deleted move constructor and move assignment (lines 172, 181) have no behaviour to model.
- `sizeof(T)` is the parameter `elemSize` of the handle-level operations.
- Ordering, disjointness and in-buffer invariants are not proved across prefix release or interior split. The code breaks them there, as `PrefixReleaseBreaksWellFormed` and `SplitBreaksWellFormed` show.
- `Chunks.EngagePreservesWellFormed`: requires `0 < n`. The invariant asks for fragments of positive length, and `engage(0)` can record an empty fragment sharing its start with the next one, as `ZeroEngageHidesFragment` shows.
- `ChunkChain.AllocatePreservesValid`: requires `0 < bytes`, because the chain invariant asks for fragments of positive length and `allocate(0)` records an empty one. The never-null promise for zero bytes is stated separately by `AllocateZero`. It also requires a valid chain, which excludes the single chunk with no fragments that an oversized first request leaves behind. `AllocateAfterOversized` states the never-null result there, and the chain it produces is valid again.
- `ChunkChain.AllocateDeallocateRoundTrip`: requires `0 < bytes`. A zero-byte request can record a fragment one past a full buffer that the following free never reaches, as `ZeroAllocateLeaks` shows. It also requires a valid chain. On the fragment-free chunk left by an oversized first request, the matching free unlinks that chunk, so the chain ends empty rather than restored, as `AllocateAfterOversized` shows.
- `ChunkChain.ChurnKeepsChain`: requires `0 < bytes`, for the same reason. Zero-byte churn can leave empty fragments behind.
- `Handles.Assign`: outside self-assignment, the C++ `operator=` returns a reference to a temporary that is destroyed when the call returns, so the caller receives a dangling reference. Binding that temporary to a non-const reference does not compile once the member is instantiated, and the tests never instantiate it. The model yields the assigned handle's value in its place.
- `Chunks.Release`: its own contract gives the buffer, the fragment-count bounds and when the chunk ends empty. The per-case effects are stated by `ReleaseHeadExact`, `ReleaseExactNonHead`, `ReleasePrefix`, `ReleaseOverlong`, `ReleaseInterior` and `ReleaseUnmatched`.
- `ChunkChain.Allocate`: its own contract gives only the chain-length bound. The search order, results and invariants are stated by `AllocateSearchOrder`, `AllocateOversized` and `AllocatePreservesValid`.
- `ChunkChain.Deallocate`: its own contract gives the length bound and the no-owner case. The owner case is `DeallocateOwner`.
- `VectorOps.Cross`: its own contract gives only the length. The component formulas are its definition, and their algebra is stated by `CrossOrthogonal`, `CrossAntiCommutes` and `CrossSelf`.
- Vector elements are unbounded integers, so C++ `int` overflow is not modelled. `|` and `&` work on `bv32`. The binary operators and `%` read `b` (and `a` for `%`) beyond its end when it is too short. The model requires the lengths instead.
- `reverse` works in place in C++. Here it is a function that returns the reversed vector.
- Collinearity `||`, co-direction `&&`, and stream `<<`/`>>` in vector_ops.h use a floating-point scale factor and I/O.
- The matrix, geometry, smart-pointer, functional and DFS parts of the repository are not part of this model.
- `XorSum` (xor_sum.h) is not part of this model. `Game` takes the sum as a parameter, and `NimSum` stands in for it in `GameMoveWins`.
- `NimFirstMove.HeapIndex`: the template's `size_t` index `Index + 1` never wraps for any real heap list, and the model uses an unbounded index.
- `NimFirstMove.ToSsize`: C++ before C++20 leaves the conversion of `size_t` values of 2^63 and above to `ssize_t` implementation-defined. The model uses two's complement.
- `Game` with no heaps does not instantiate in C++. The model requires at least one heap.

=== FILE: allocator.dfy ===
/**
 * The chunk chain behind one allocator family: `allocate`, `deallocate`
 * and `chunk_count` of `chunk_allocator` in chunk_allocator.h. The chain is
 * a sequence of chunks newest first: `chain[0]` is `shares_->tail` and
 * `chain[i + 1]` is `chain[i].prev()`. The address of a chunk created by a
 * call is supplied by the caller as `newBase`.
 */
module ChunkChain {
  import opened Wrappers
  import opened Chunks

  /** A successful `engage` on the chunk at `index`. */
  datatype Hit = Hit(index: nat, chunk: Chunk, addr: nat)

  /** `sizeof(T) * n` computed in `size_t`. */
  function RequestBytes(elemSize: nat, count: nat): (bytes: nat)
    ensures bytes < SIZE_T_MODULUS
    ensures elemSize * count < SIZE_T_MODULUS ==> bytes == elemSize * count
  {
    (elemSize * count) % SIZE_T_MODULUS
  }

  /**
   * The search of `allocate`: `engage` on `chain[i]`, `chain[i + 1]`, ...
   * in turn; the first placement wins and an exception ends the search.
   */
  function TryChunks(chain: seq<Chunk>, bytes: nat, i: nat): (r: Result<Option<Hit>, AllocError>)
    requires i <= |chain|
    ensures r.Success? && r.value.Some? ==>
              var h := r.value.value;
              && i <= h.index < |chain|
              && Engage(chain[h.index], bytes) == Success(Placed(h.chunk, h.addr))
              && forall j :: i <= j < h.index ==> Engage(chain[j], bytes) == Success(NoRoom)
    ensures r == Success(None) <==> forall j :: i <= j < |chain| ==> Engage(chain[j], bytes) == Success(NoRoom)
    ensures r.Failure? ==> exists j :: i <= j < |chain| && Engage(chain[j], bytes).Failure?
    decreases |chain| - i
  {
    if i == |chain| then
      Success(None)
    else
      match Engage(chain[i], bytes)
      case Failure(e) => Failure(e)
      case Success(Placed(c, a)) => Success(Some(Hit(i, c, a)))
      case Success(NoRoom) => TryChunks(chain, bytes, i + 1)
  }

  /**
   * `chunk_allocator::allocate` for a request of `bytes` bytes. An empty
   * chain first gets a chunk (before `engage` can throw); then the newest
   * chunk and the older ones are tried newest first; when all are full a
   * new chunk becomes the newest and takes the request. The resulting chain
   * is returned on the error path too.
   */
  function Allocate(chain: seq<Chunk>, bytes: nat, newBase: nat): (r: (seq<Chunk>, Result<nat, AllocError>))
    ensures |chain| <= |r.0| <= |chain| + 1
  {
    var chain0 := if |chain| == 0 then [NewChunk(newBase, CHUNK_SIZE)] else chain;
    match TryChunks(chain0, bytes, 0)
    case Failure(e) => (chain0, Failure(e))
    case Success(Some(h)) => (chain0[h.index := h.chunk], Success(h.addr))
    case Success(None) =>
      var grown := [NewChunk(newBase, CHUNK_SIZE)] + chain0;
      match Engage(grown[0], bytes)
      case Success(Placed(c, a)) => (grown[0 := c], Success(a))
      case Success(NoRoom) => (grown, Success(NULL))
      case Failure(e) => (grown, Failure(e))
  }

  /** The first chunk at or after `i`, newest first, whose buffer holds `p`. */
  function Owner(chain: seq<Chunk>, p: nat, i: nat): (r: Option<nat>)
    requires i <= |chain|
    ensures r.Some? ==> i <= r.value < |chain| && Contains(chain[r.value], p)
                        && forall j :: i <= j < r.value ==> !Contains(chain[j], p)
    ensures r.None? <==> forall j :: i <= j < |chain| ==> !Contains(chain[j], p)
    decreases |chain| - i
  {
    if i == |chain| then None
    else if Contains(chain[i], p) then Some(i)
    else Owner(chain, p, i + 1)
  }

  /**
   * `chunk_allocator::deallocate` for `bytes` bytes at `p`: release in the
   * first chunk whose buffer holds `p` and unlink that chunk when it becomes
   * empty; an address no chunk holds is ignored.
   */
  function Deallocate(chain: seq<Chunk>, p: nat, bytes: nat): (r: seq<Chunk>)
    ensures |chain| - 1 <= |r| <= |chain|
    ensures (forall j :: 0 <= j < |chain| ==> !Contains(chain[j], p)) ==> r == chain
  {
    match Owner(chain, p, 0)
    case None => chain
    case Some(i) =>
      var c := Release(chain[i], p, bytes);
      if Empty(c) then
        if i == 0 then
          chain[1..]                       // the tail moves to its predecessor
        else
          chain[..i] + chain[i + 1..]      // the newer neighbour skips chunk i
      else
        chain[i := c]
  }

  /** `chunk_allocator::chunk_count`: walk the chain from the tail and count. */
  method ChunkCount(chain: seq<Chunk>) returns (count: nat)
    ensures count == |chain|
  {
    count := 0;
    var cur := 0;
    while cur < |chain|
      invariant cur <= |chain| && count == cur
    {
      count := count + 1;
      cur := cur + 1;
    }
  }

  // ---------------------------------------------------------------------
  // The chain invariant
  // ---------------------------------------------------------------------

  predicate BuffersDisjoint(a: Chunk, b: Chunk) {
    a.Limit() <= b.data || b.Limit() <= a.data
  }

  /** A chunk as `allocate` leaves it: pool-sized, well formed and in use. */
  predicate LiveChunk(c: Chunk) {
    WellFormed(c) && c.size == CHUNK_SIZE && !Empty(c)
  }

  /** Every chunk live and no two buffers overlapping. */
  predicate ValidChain(chain: seq<Chunk>) {
    && (forall i :: 0 <= i < |chain| ==> LiveChunk(chain[i]))
    && (forall i, j :: 0 <= i < j < |chain| ==> BuffersDisjoint(chain[i], chain[j]))
  }

  /** `newBase` can be the buffer of a new chunk: non-null and clear of every live buffer. */
  predicate BaseAvailable(chain: seq<Chunk>, newBase: nat) {
    && NULL < newBase
    && forall i :: 0 <= i < |chain| ==> BuffersDisjoint(NewChunk(newBase, CHUNK_SIZE), chain[i])
  }

  predicate PoolSized(chain: seq<Chunk>) {
    forall i :: 0 <= i < |chain| ==> chain[i].size == CHUNK_SIZE
  }

  // ---------------------------------------------------------------------
  // allocate
  // ---------------------------------------------------------------------

  /** With pool-sized chunks and a request that fits one, no `engage` throws. */
  lemma EngageNeverThrows(chain: seq<Chunk>, bytes: nat, i: nat)
    requires PoolSized(chain) && bytes <= CHUNK_SIZE && i <= |chain|
    ensures forall j :: 0 <= j < |chain| ==> Engage(chain[j], bytes).Success?
    ensures TryChunks(chain, bytes, i).Success?
  {
    forall j | 0 <= j < |chain|
      ensures Engage(chain[j], bytes).Success?
    {
      assert chain[j].size == CHUNK_SIZE;
    }
  }

  /**
   * A request larger than a chunk throws `out_of_range`; the chain is left
   * as it was, except that an empty chain has gained its first chunk.
   */
  lemma AllocateOversized(chain: seq<Chunk>, bytes: nat, newBase: nat)
    requires PoolSized(chain) && bytes > CHUNK_SIZE
    ensures Allocate(chain, bytes, newBase)
         == (if |chain| == 0 then [NewChunk(newBase, CHUNK_SIZE)] else chain, Failure(OutOfRange))
  {
  }

  /**
   * The search order of `allocate` for a request that fits a chunk: the
   * newest chunk that can place it gets it and nothing else changes; when
   * none can, a new chunk at `newBase` becomes the newest and holds the
   * request at its start. An empty chain gets its first chunk the same way.
   */
  lemma AllocateSearchOrder(chain: seq<Chunk>, bytes: nat, newBase: nat)
    requires PoolSized(chain) && bytes <= CHUNK_SIZE
    ensures forall i :: 0 <= i < |chain| && Engage(chain[i], bytes).value.Placed?
                        && (forall j :: 0 <= j < i ==> Engage(chain[j], bytes) == Success(NoRoom)) ==>
              Allocate(chain, bytes, newBase)
              == (chain[i := Engage(chain[i], bytes).value.chunk], Success(Engage(chain[i], bytes).value.addr))
    ensures (forall j :: 0 <= j < |chain| ==> Engage(chain[j], bytes) == Success(NoRoom)) ==>
              Allocate(chain, bytes, newBase)
              == ([Chunk(newBase, CHUNK_SIZE, [Fragment(newBase, bytes)])] + chain, Success(newBase))
  {
    EngageNeverThrows(chain, bytes, 0);
    var t := TryChunks(chain, bytes, 0);
    forall i | 0 <= i < |chain| && Engage(chain[i], bytes).value.Placed?
                && (forall j :: 0 <= j < i ==> Engage(chain[j], bytes) == Success(NoRoom))
      ensures t == Success(Some(Hit(i, Engage(chain[i], bytes).value.chunk, Engage(chain[i], bytes).value.addr)))
    {
      assert Engage(chain[i], bytes) != Success(NoRoom);
      assert t.value.Some?;
      var h := t.value.value;
      assert Engage(chain[h.index], bytes) != Success(NoRoom);
    }
    var c := Chunk(newBase, CHUNK_SIZE, [Fragment(newBase, bytes)]);
    if |chain| == 0 {
      assert TryChunks([NewChunk(newBase, CHUNK_SIZE)], bytes, 0) == Success(Some(Hit(0, c, newBase)));
      assert [NewChunk(newBase, CHUNK_SIZE)][0 := c] == [c] + chain;
    } else if forall j :: 0 <= j < |chain| ==> Engage(chain[j], bytes) == Success(NoRoom) {
      assert t == Success(None);
      assert ([NewChunk(newBase, CHUNK_SIZE)] + chain)[0 := c] == [c] + chain;
    }
  }

  /**
   * For a request that fits a chunk, `allocate` either places it in one of
   * the existing chunks or puts it at the start of a new newest chunk.
   */
  lemma AllocateShape(chain: seq<Chunk>, bytes: nat, newBase: nat)
    requires PoolSized(chain) && bytes <= CHUNK_SIZE
    ensures var r := Allocate(chain, bytes, newBase);
            || r == ([Chunk(newBase, CHUNK_SIZE, [Fragment(newBase, bytes)])] + chain, Success(newBase))
            || exists i :: 0 <= i < |chain| && Engage(chain[i], bytes).value.Placed?
                           && r == (chain[i := Engage(chain[i], bytes).value.chunk], Success(Engage(chain[i], bytes).value.addr))
  {
    AllocateSearchOrder(chain, bytes, newBase);
    EngageNeverThrows(chain, bytes, 0);
    var t := TryChunks(chain, bytes, 0);
    if t.value.Some? {
      var i := t.value.value.index;
      assert Engage(chain[i], bytes).value.Placed?;
    }
  }

  lemma PushValid(chain: seq<Chunk>, c: Chunk)
    requires ValidChain(chain) && LiveChunk(c)
    requires forall i :: 0 <= i < |chain| ==> BuffersDisjoint(c, chain[i])
    ensures ValidChain([c] + chain)
  {
    var r := [c] + chain;
    forall i, j | 0 <= i < j < |r|
      ensures BuffersDisjoint(r[i], r[j])
    {
      if i > 0 {
        assert BuffersDisjoint(chain[i - 1], chain[j - 1]);
      } else {
        assert BuffersDisjoint(c, chain[j - 1]);
      }
    }
  }

  lemma ReplaceValid(chain: seq<Chunk>, i: nat, c: Chunk)
    requires ValidChain(chain) && i < |chain| && LiveChunk(c)
    requires c.data == chain[i].data && c.size == chain[i].size
    ensures ValidChain(chain[i := c])
  {
    var r := chain[i := c];
    forall a, b | 0 <= a < b < |r|
      ensures BuffersDisjoint(r[a], r[b])
    {
      assert BuffersDisjoint(chain[a], chain[b]);
    }
  }

  /**
   * For a request of 1 .. CHUNK_SIZE bytes on a valid chain, `allocate`
   * never returns null, records the request as a fragment of one chunk and
   * keeps the chain valid (it adds at most one chunk, by its contract).
   */
  lemma AllocatePreservesValid(chain: seq<Chunk>, bytes: nat, newBase: nat)
    requires ValidChain(chain) && BaseAvailable(chain, newBase) && 0 < bytes <= CHUNK_SIZE
    ensures var r := Allocate(chain, bytes, newBase);
            && r.1.Success? && r.1.value != NULL
            && ValidChain(r.0)
            && exists i, k :: 0 <= i < |r.0| && 0 <= k < |r.0[i].frags|
                              && r.0[i].frags[k] == Fragment(r.1.value, bytes)
  {
    var r := Allocate(chain, bytes, newBase);
    AllocateShape(chain, bytes, newBase);
    var c := Chunk(newBase, CHUNK_SIZE, [Fragment(newBase, bytes)]);
    if r == ([c] + chain, Success(newBase)) {
      assert InBuffer(c, c.frags[0]);
      assert LiveChunk(c);
      forall i | 0 <= i < |chain|
        ensures BuffersDisjoint(c, chain[i])
      {
        assert BuffersDisjoint(NewChunk(newBase, CHUNK_SIZE), chain[i]);
      }
      PushValid(chain, c);
      assert r.0[0].frags[0] == Fragment(r.1.value, bytes);
    } else {
      var i :| 0 <= i < |chain| && Engage(chain[i], bytes).value.Placed?
                && r == (chain[i := Engage(chain[i], bytes).value.chunk], Success(Engage(chain[i], bytes).value.addr));
      var e := Engage(chain[i], bytes).value;
      assert LiveChunk(chain[i]);
      EngagePreservesWellFormed(chain[i], bytes);
      ReplaceValid(chain, i, e.chunk);
      var k :| 0 <= k < |e.chunk.frags| && e.chunk.frags[k] == Fragment(e.addr, bytes);
      assert r.0[i].frags[k] == Fragment(r.1.value, bytes);
    }
  }

  /**
   * `allocate(0)` on a valid chain never returns null either: the newest
   * chunk takes an empty fragment where its head ends, and an empty chain
   * gets its first chunk with an empty fragment at its start. No chunk is
   * added to a non-empty chain.
   */
  lemma AllocateZero(chain: seq<Chunk>, newBase: nat)
    requires ValidChain(chain) && BaseAvailable(chain, newBase)
    ensures var r := Allocate(chain, 0, newBase);
            && r.1.Success? && r.1.value != NULL
            && (|chain| == 0 ==> r == ([Chunk(newBase, CHUNK_SIZE, [Fragment(newBase, 0)])], Success(newBase)))
            && (|chain| > 0 ==> r == (chain[0 := PlacedAfter(chain[0], 0, 0).chunk], Success(chain[0].frags[0].End())))
  {
    if |chain| == 0 {
      var c := Chunk(newBase, CHUNK_SIZE, [Fragment(newBase, 0)]);
      assert Engage(NewChunk(newBase, CHUNK_SIZE), 0) == Success(Placed(c, newBase));
      assert TryChunks([NewChunk(newBase, CHUNK_SIZE)], 0, 0) == Success(Some(Hit(0, c, newBase)));
      assert [NewChunk(newBase, CHUNK_SIZE)][0 := c] == [c];
    } else {
      assert LiveChunk(chain[0]);
      EngageZero(chain[0]);
      assert TryChunks(chain, 0, 0) == Success(Some(Hit(0, PlacedAfter(chain[0], 0, 0).chunk, chain[0].frags[0].End())));
    }
  }

  /**
   * An oversized first request leaves one chunk with no fragments, a chain
   * `ValidChain` does not cover. The allocator stays usable: a request of at
   * most a chunk lands at the start of that chunk, never at null, and the
   * matching free takes the head-exact branch and unlinks the chunk, leaving
   * no chain at all rather than the chain before the request.
   */
  lemma AllocateAfterOversized(b: nat, bytes: nat, n: nat, newBase: nat)
    requires NULL < b && CHUNK_SIZE < bytes && n <= CHUNK_SIZE
    ensures var first := Allocate([], bytes, b);
            var r := Allocate(first.0, n, newBase);
            && first == ([NewChunk(b, CHUNK_SIZE)], Failure(OutOfRange))
            && !ValidChain(first.0)
            && r == ([Chunk(b, CHUNK_SIZE, [Fragment(b, n)])], Success(b))
            && r.1.value != NULL
            && Deallocate(r.0, b, n) == []
  {
    var c := Chunk(b, CHUNK_SIZE, [Fragment(b, n)]);
    assert Engage(NewChunk(b, CHUNK_SIZE), n) == Success(Placed(c, b));
    assert TryChunks([NewChunk(b, CHUNK_SIZE)], n, 0) == Success(Some(Hit(0, c, b)));
    assert [NewChunk(b, CHUNK_SIZE)][0 := c] == [c];
    assert Contains(c, b);
    assert Owner([c], b, 0) == Some(0);
  }

  // ---------------------------------------------------------------------
  // deallocate
  // ---------------------------------------------------------------------

  /**
   * `deallocate` acts on the first chunk, newest first, whose buffer holds
   * `p`: the release result replaces it, or, when the chunk is left empty,
   * the chunk is unlinked and the chain is one chunk shorter with every
   * other chunk in its old order.
   */
  lemma DeallocateOwner(chain: seq<Chunk>, p: nat, bytes: nat, i: nat)
    requires i < |chain| && Contains(chain[i], p)
    requires forall j :: 0 <= j < i ==> !Contains(chain[j], p)
    ensures var c := Release(chain[i], p, bytes);
            && (Empty(c) ==> Deallocate(chain, p, bytes) == chain[..i] + chain[i + 1..])
            && (Empty(c) ==> |Deallocate(chain, p, bytes)| == |chain| - 1)
            && (!Empty(c) ==> Deallocate(chain, p, bytes) == chain[i := c])
  {
    var o := Owner(chain, p, 0);
    assert o == Some(i) by {
      assert o.Some?;
    }
  }

  /** In a valid chain the owner of an address is the only chunk holding it. */
  lemma OwnerUnique(chain: seq<Chunk>, p: nat, i: nat)
    requires ValidChain(chain) && i < |chain| && Contains(chain[i], p)
    ensures forall j :: 0 <= j < |chain| && j != i ==> !Contains(chain[j], p)
  {
    forall j | 0 <= j < |chain| && j != i
      ensures !Contains(chain[j], p)
    {
      if j < i {
        assert BuffersDisjoint(chain[j], chain[i]);
      } else {
        assert BuffersDisjoint(chain[i], chain[j]);
      }
    }
  }

  lemma UnlinkValid(chain: seq<Chunk>, i: nat)
    requires ValidChain(chain) && i < |chain|
    ensures ValidChain(chain[..i] + chain[i + 1..])
  {
    var r := chain[..i] + chain[i + 1..];
    forall a, b | 0 <= a < b < |r|
      ensures BuffersDisjoint(r[a], r[b])
    {
      var a' := if a < i then a else a + 1;
      var b' := if b < i then b else b + 1;
      assert r[a] == chain[a'] && r[b] == chain[b'];
      assert BuffersDisjoint(chain[a'], chain[b']);
    }
    forall a | 0 <= a < |r|
      ensures LiveChunk(r[a])
    {
      var a' := if a < i then a else a + 1;
      assert r[a] == chain[a'];
    }
  }

  /**
   * Freeing the exact bytes of a non-head fragment of a valid chain removes
   * just that fragment from its chunk and keeps the chain valid.
   */
  lemma DeallocateExactNonHead(chain: seq<Chunk>, i: nat, k: nat)
    requires ValidChain(chain) && i < |chain| && 0 < k < |chain[i].frags|
    ensures var f := chain[i].frags[k];
            && Deallocate(chain, f.ptr, f.len) == chain[i := chain[i].(frags := Remove(chain[i].frags, k))]
            && ValidChain(Deallocate(chain, f.ptr, f.len))
  {
    var c := chain[i];
    var f := c.frags[k];
    assert LiveChunk(c) && InBuffer(c, f);
    OwnerUnique(chain, f.ptr, i);
    ReleaseExactNonHead(c, k);
    DeallocateOwner(chain, f.ptr, f.len, i);
    var r := chain[i := c.(frags := Remove(c.frags, k))];
    forall a, b | 0 <= a < b < |r|
      ensures BuffersDisjoint(r[a], r[b])
    {
      assert BuffersDisjoint(chain[a], chain[b]);
    }
  }

  /**
   * Freeing the exact bytes of the head fragment of a chunk empties it, so
   * the chunk is unlinked even if it held further fragments; the chain stays
   * valid and one chunk shorter.
   */
  lemma DeallocateHeadExact(chain: seq<Chunk>, i: nat)
    requires ValidChain(chain) && i < |chain|
    ensures var f := chain[i].frags[0];
            && Deallocate(chain, f.ptr, f.len) == chain[..i] + chain[i + 1..]
            && |Deallocate(chain, f.ptr, f.len)| == |chain| - 1
            && ValidChain(Deallocate(chain, f.ptr, f.len))
  {
    var c := chain[i];
    var f := c.frags[0];
    assert LiveChunk(c) && InBuffer(c, f);
    OwnerUnique(chain, f.ptr, i);
    ReleaseHeadExact(c);
    DeallocateOwner(chain, f.ptr, f.len, i);
    UnlinkValid(chain, i);
  }

  // ---------------------------------------------------------------------
  // allocate followed by deallocate
  // ---------------------------------------------------------------------

  /**
   * Freeing what `allocate` just returned restores the chain exactly: the
   * fragment goes, and a chunk created for it is unlinked again. So a
   * following allocation of the same size gets the same address, provided
   * a chunk it creates is given the same base again.
   */
  lemma AllocateDeallocateRoundTrip(chain: seq<Chunk>, bytes: nat, newBase: nat)
    requires ValidChain(chain) && BaseAvailable(chain, newBase) && 0 < bytes <= CHUNK_SIZE
    ensures var r := Allocate(chain, bytes, newBase);
            r.1.Success? && Deallocate(r.0, r.1.value, bytes) == chain
  {
    var r := Allocate(chain, bytes, newBase);
    AllocateShape(chain, bytes, newBase);
    AllocatePreservesValid(chain, bytes, newBase);
    var c := Chunk(newBase, CHUNK_SIZE, [Fragment(newBase, bytes)]);
    if r == ([c] + chain, Success(newBase)) {
      FreeFromNewChunk(chain, c);
    } else {
      var i :| 0 <= i < |chain| && Engage(chain[i], bytes).value.Placed?
                && r == (chain[i := Engage(chain[i], bytes).value.chunk], Success(Engage(chain[i], bytes).value.addr));
      FreeFromOldChunk(chain, bytes, i);
    }
  }

  /** Freeing the only fragment of a newly pushed chunk unlinks it again. */
  lemma FreeFromNewChunk(chain: seq<Chunk>, c: Chunk)
    requires NULL < c.data && |c.frags| == 1 && c.frags[0].ptr == c.data && 0 < c.frags[0].len <= c.size
    ensures Deallocate([c] + chain, c.data, c.frags[0].len) == chain
  {
    var r := [c] + chain;
    DeallocateOwner(r, c.data, c.frags[0].len, 0);
    assert r[..0] + r[1..] == chain;
  }

  /** Freeing what `engage` just placed in chunk `i` restores the chain. */
  lemma FreeFromOldChunk(chain: seq<Chunk>, bytes: nat, i: nat)
    requires ValidChain(chain) && i < |chain| && 0 < bytes
    requires Engage(chain[i], bytes).Success? && Engage(chain[i], bytes).value.Placed?
    ensures var e := Engage(chain[i], bytes).value;
            Deallocate(chain[i := e.chunk], e.addr, bytes) == chain
  {
    var e := Engage(chain[i], bytes).value;
    var r := chain[i := e.chunk];
    assert LiveChunk(chain[i]);
    EngagePreservesWellFormed(chain[i], bytes);
    EngageReleaseRoundTrip(chain[i], bytes);
    assert Contains(r[i], e.addr);
    forall j | 0 <= j < i
      ensures !Contains(r[j], e.addr)
    {
      assert BuffersDisjoint(chain[j], chain[i]);
    }
    DeallocateOwner(r, e.addr, bytes, i);
    assert r[i := chain[i]] == chain;
  }

  /**
   * One allocate-then-free round of `bytes` bytes: the address `allocate`
   * returns is handed straight back to `deallocate`. The allocation adds at
   * most one chunk and the free removes at most one.
   */
  function Round(chain: seq<Chunk>, bytes: nat, newBase: nat): (r: seq<Chunk>)
    ensures |chain| - 1 <= |r| <= |chain| + 1
  {
    var (chain', res) := Allocate(chain, bytes, newBase);
    match res
    case Success(a) => Deallocate(chain', a, bytes)
    case Failure(_) => chain'
  }

  /** `reps` rounds of allocate-then-free of `bytes` bytes. */
  function Churn(chain: seq<Chunk>, bytes: nat, newBase: nat, reps: nat): seq<Chunk>
    decreases reps
  {
    if reps == 0 then chain
    else Churn(Round(chain, bytes, newBase), bytes, newBase, reps - 1)
  }

  /** Alloc/free churn leaves the chain, and so `chunk_count`, as it was. */
  lemma ChurnKeepsChain(chain: seq<Chunk>, bytes: nat, newBase: nat, reps: nat)
    requires ValidChain(chain) && BaseAvailable(chain, newBase) && 0 < bytes <= CHUNK_SIZE
    ensures Churn(chain, bytes, newBase, reps) == chain
  {
    AllocateDeallocateRoundTrip(chain, bytes, newBase);
    RoundsRestore(chain, bytes, newBase, reps);
  }

  /** When one round restores the chain, so does any number of rounds. */
  lemma {:induction false} RoundsRestore(chain: seq<Chunk>, bytes: nat, newBase: nat, reps: nat)
    requires Round(chain, bytes, newBase) == chain
    ensures Churn(chain, bytes, newBase, reps) == chain
    decreases reps
  {
    if reps > 0 {
      RoundsRestore(chain, bytes, newBase, reps - 1);
    }
  }

  /**
   * On any chain and for any request, each churn round adds at most one
   * chunk and removes at most one, so `chunk_count` moves by at most `reps`.
   */
  lemma {:induction false} ChurnBounds(chain: seq<Chunk>, bytes: nat, newBase: nat, reps: nat)
    ensures |chain| - reps <= |Churn(chain, bytes, newBase, reps)| <= |chain| + reps
    decreases reps
  {
    if reps > 0 {
      ChurnBounds(Round(chain, bytes, newBase), bytes, newBase, reps - 1);
    }
  }

  /**
   * A zero-byte request passes the gap test at the end of a full chunk, so
   * `allocate(0)` returns the address one past its buffer and records an
   * empty fragment there. `contains` rejects that address, so the matching
   * `deallocate` leaves the fragment in place.
   */
  lemma ZeroAllocateLeaks(b: nat, newBase: nat)
    requires NULL < b && NULL < newBase
    requires b + CHUNK_SIZE <= newBase || newBase + CHUNK_SIZE <= b
    ensures var chain := [Chunk(b, CHUNK_SIZE, [Fragment(b, CHUNK_SIZE)])];
            var r := Allocate(chain, 0, newBase);
            && ValidChain(chain) && BaseAvailable(chain, newBase)
            && r == ([Chunk(b, CHUNK_SIZE, [Fragment(b, CHUNK_SIZE), Fragment(b + CHUNK_SIZE, 0)])], Success(b + CHUNK_SIZE))
            && Deallocate(r.0, b + CHUNK_SIZE, 0) == r.0 != chain
  {
    var c := Chunk(b, CHUNK_SIZE, [Fragment(b, CHUNK_SIZE)]);
    var c' := Chunk(b, CHUNK_SIZE, [Fragment(b, CHUNK_SIZE), Fragment(b + CHUNK_SIZE, 0)]);
    assert InBuffer(c, c.frags[0]);
    assert c.frags[..1] + [Fragment(b + CHUNK_SIZE, 0)] == c'.frags;
    assert Engage(c, 0) == Success(Placed(c', b + CHUNK_SIZE));
    assert TryChunks([c], 0, 0) == Success(Some(Hit(0, c', b + CHUNK_SIZE)));
    assert [c][0 := c'] == [c'];
  }
}

=== FILE: chunk.dfy ===
/**
 * One chunk of the pooled allocator: a fixed buffer [data, data + size) and
 * the address-ordered list of used fragments inside it (`chunk` in
 * chunk_allocator.h). Addresses are naturals and the null pointer is 0.
 *
 * The operations are modelled as the source writes them, including the
 * places where they break the list invariant (prefix release, interior
 * split); the invariant lemmas are proved only for the operations that
 * keep it.
 */
module Chunks {
  import opened Wrappers

  /** Capacity in bytes of every chunk a pool creates (4 KiB). */
  const CHUNK_SIZE: nat := 4096

  /** The null pointer. */
  const NULL: nat := 0

  /** 2^64, the modulus of `size_t` arithmetic. */
  const SIZE_T_MODULUS: nat := 0x1_0000_0000_0000_0000

  /** The only exception the engine raises: `std::out_of_range`. */
  datatype AllocError = OutOfRange

  /** A used fragment covering [ptr, ptr + len). */
  datatype Fragment = Fragment(ptr: nat, len: nat) {
    function End(): nat { ptr + len }
  }

  /** A chunk: its buffer [data, data + size) and its fragment list, head first. */
  datatype Chunk = Chunk(data: nat, size: nat, frags: seq<Fragment>) {
    function Limit(): nat { data + size }
  }

  /** What `engage` hands back when it does not throw: an address or nullptr. */
  datatype Engaged = Placed(chunk: Chunk, addr: nat) | NoRoom

  /**
   * A freshly constructed chunk over the buffer at `data`: nothing is in
   * use yet, so it satisfies the invariant whenever its buffer does.
   */
  function NewChunk(data: nat, size: nat): (c: Chunk)
    ensures c.data == data && c.size == size && Empty(c)
    ensures NULL < data && size < SIZE_T_MODULUS ==> WellFormed(c)
  {
    Chunk(data, size, [])
  }

  function Insert(s: seq<Fragment>, k: nat, f: Fragment): (r: seq<Fragment>)
    requires k <= |s|
    ensures |r| == |s| + 1 && r[k] == f
    ensures forall i :: 0 <= i < k ==> r[i] == s[i]
    ensures forall i :: k < i < |r| ==> r[i] == s[i - 1]
  {
    s[..k] + [f] + s[k..]
  }

  function Remove(s: seq<Fragment>, k: nat): (r: seq<Fragment>)
    requires k < |s|
    ensures |r| == |s| - 1
    ensures forall i :: 0 <= i < k ==> r[i] == s[i]
    ensures forall i :: k <= i < |r| ==> r[i] == s[i + 1]
  {
    s[..k] + s[k + 1..]
  }

  lemma RemoveInsert(s: seq<Fragment>, k: nat, f: Fragment)
    requires k <= |s|
    ensures Remove(Insert(s, k, f), k) == s
  {
    var r := Remove(Insert(s, k, f), k);
    assert forall i :: 0 <= i < |s| ==> r[i] == s[i];
  }

  /**
   * `to - from` as the C++ comparison `n <= to - from` sees it: the signed
   * pointer difference converted to `size_t`, so a negative difference
   * becomes a huge unsigned value.
   */
  function Distance(from: nat, to: nat): (d: nat)
    ensures d < SIZE_T_MODULUS
    ensures from <= to < from + SIZE_T_MODULUS ==> d == to - from
    ensures to < from < to + SIZE_T_MODULUS ==> d == SIZE_T_MODULUS - (from - to)
  {
    (to - from) % SIZE_T_MODULUS
  }

  /** The gap test of `engage`: does a request of `n` bytes fit between `from` and `to`? */
  predicate Fits(n: nat, from: nat, to: nat) {
    n <= Distance(from, to)
  }

  /**
   * `chunk::engage`: first-fit placement of an `n`-byte fragment. Throws
   * (Failure) when `n` exceeds the chunk size, places the first fragment at
   * the buffer start in an empty chunk, and otherwise scans the list.
   */
  function Engage(c: Chunk, n: nat): (r: Result<Engaged, AllocError>)
    ensures r.Failure? <==> n > c.size
    ensures r.Success? && r.value.Placed? ==>
              var c' := r.value.chunk;
              && c'.data == c.data && c'.size == c.size
              && (exists k :: 0 <= k < |c'.frags| && c'.frags[k] == Fragment(r.value.addr, n))
  {
    if n > c.size then
      Failure(OutOfRange)
    else if |c.frags| == 0 then
      var c' := c.(frags := [Fragment(c.data, n)]);
      assert c'.frags[0] == Fragment(c.data, n);
      Success(Placed(c', c.data))
    else
      Success(Scan(c, n, 0))
  }

  /**
   * The loop of `engage` with `current` at index `i` and `following` at
   * `i + 1`: take the first gap between neighbours that fits, else the gap
   * after the last fragment visited, else report no room. The tail placement
   * links the new fragment with a null `next`, which drops whatever followed
   * `current` (only reachable when the loop stopped at a null `ptr`).
   */
  function Scan(c: Chunk, n: nat, i: nat): (r: Engaged)
    requires i < |c.frags|
    ensures r.Placed? ==> r.chunk.data == c.data && r.chunk.size == c.size
    ensures r.Placed? ==> exists k :: i <= k < |c.frags| && r.addr == c.frags[k].End()
                                    && k + 1 < |r.chunk.frags| && r.chunk.frags[k + 1] == Fragment(r.addr, n)
    decreases |c.frags| - i
  {
    var current := c.frags[i];
    if i + 1 < |c.frags| && c.frags[i + 1].ptr != NULL then
      if Fits(n, current.End(), c.frags[i + 1].ptr) then
        Placed(c.(frags := Insert(c.frags, i + 1, Fragment(current.End(), n))), current.End())
      else
        Scan(c, n, i + 1)
    else if Fits(n, current.End(), c.Limit()) then
      Placed(c.(frags := c.frags[..i + 1] + [Fragment(current.End(), n)]), current.End())
    else
      NoRoom
  }

  /**
   * `chunk::split`: release [p, p + n) from the interior of fragment `k`.
   * The fragment is cut to end at `p`; the suffix gets length `len - n` and
   * starts at `ptr + (len - n - (p - ptr))`, as the source computes it.
   */
  function Split(c: Chunk, k: nat, p: nat, n: nat): (r: Chunk)
    requires k < |c.frags|
    requires c.frags[k].ptr < p && p + n < c.frags[k].End()
    ensures r.data == c.data && r.size == c.size && |r.frags| == |c.frags| + 1
    ensures r.frags[..k] == c.frags[..k] && r.frags[k + 2..] == c.frags[k + 1..]
    ensures r.frags[k] == Fragment(c.frags[k].ptr, p - c.frags[k].ptr)
    ensures r.frags[k + 1].len + n == c.frags[k].len
    ensures r.frags[k + 1].ptr + (p - c.frags[k].ptr) == c.frags[k].ptr + r.frags[k + 1].len
  {
    var current := c.frags[k];
    var offset := p - current.ptr;
    var suffixLen := current.len - n;
    var suffix := Fragment(current.ptr + (suffixLen - offset), suffixLen);
    c.(frags := c.frags[..k] + [Fragment(current.ptr, offset), suffix] + c.frags[k + 1..])
  }

  /**
   * `chunk::release`: free `n` bytes at `p`. A fragment starting at `p` is
   * removed when `n` is its length (for the head this clears the whole
   * list), advanced by `n` when `n` is shorter, and left alone otherwise; a
   * fragment strictly containing [p, p + n) is split; anything else is a
   * no-op.
   */
  function Release(c: Chunk, p: nat, n: nat): (r: Chunk)
    ensures r.data == c.data && r.size == c.size
    ensures |r.frags| <= |c.frags| + 1
    ensures Empty(r) <==> Empty(c) || (c.frags[0].ptr != NULL && c.frags[0].ptr == p && c.frags[0].len == n)
  {
    if |c.frags| == 0 || c.frags[0].ptr == NULL then
      c
    else if c.frags[0].ptr == p then
      if n == c.frags[0].len then
        c.(frags := [])
      else if n < c.frags[0].len then
        c.(frags := c.frags[0 := c.frags[0].(ptr := c.frags[0].ptr + n)])
      else
        c
    else if c.frags[0].ptr < p && p + n < c.frags[0].End() then
      Split(c, 0, p, n)
    else
      ReleaseFrom(c, p, n, 0)
  }

  /** The loop of `release` with `current` at index `i` and `following` at `i + 1`. */
  function ReleaseFrom(c: Chunk, p: nat, n: nat, i: nat): (r: Chunk)
    requires i < |c.frags|
    ensures r.data == c.data && r.size == c.size
    ensures |r.frags| <= |c.frags| + 1
    ensures !Empty(r)
    decreases |c.frags| - i
  {
    if i + 1 < |c.frags| && c.frags[i + 1].ptr != NULL then
      var following := c.frags[i + 1];
      if following.ptr == p then
        if n == following.len then
          c.(frags := Remove(c.frags, i + 1))
        else if n < following.len then
          c.(frags := c.frags[i + 1 := following.(ptr := following.ptr + n)])
        else
          c
      else if following.ptr < p && p + n < following.End() then
        Split(c, i + 1, p, n)
      else
        ReleaseFrom(c, p, n, i + 1)
    else
      c
  }

  /**
   * `chunk::contains`: does `p` fall inside the chunk's buffer? On a
   * well-formed chunk it holds for every byte of every fragment
   * (`ContainsFragments`).
   */
  predicate Contains(c: Chunk, p: nat) {
    c.data <= p < c.Limit()
  }

  /**
   * `chunk::empty`: no fragment is recorded. `Release` states when a
   * release makes a chunk empty.
   */
  predicate Empty(c: Chunk) {
    |c.frags| == 0
  }

  // ---------------------------------------------------------------------
  // The fragment-list invariant and the gaps it defines
  // ---------------------------------------------------------------------

  /** A fragment of positive length lying inside the chunk's buffer. */
  predicate InBuffer(c: Chunk, f: Fragment) {
    0 < f.len && c.data <= f.ptr && f.End() <= c.Limit()
  }

  /**
   * The invariant the allocator relies on: a non-null buffer whose size is
   * a `size_t`, fragments inside it, in strictly ascending address order
   * and pairwise disjoint.
   */
  predicate WellFormed(c: Chunk) {
    && NULL < c.data
    && c.size < SIZE_T_MODULUS
    && (forall i :: 0 <= i < |c.frags| ==> InBuffer(c, c.frags[i]))
    && (forall i, j :: 0 <= i < j < |c.frags| ==> c.frags[i].End() <= c.frags[j].ptr)
  }

  /** Where the free space after fragment `k` ends: the next fragment or the buffer end. */
  function NextStart(c: Chunk, k: nat): nat
    requires k < |c.frags|
  {
    if k + 1 < |c.frags| then c.frags[k + 1].ptr else c.Limit()
  }

  /** Size of the free space directly after fragment `k`. */
  function GapAfter(c: Chunk, k: nat): int
    requires k < |c.frags|
  {
    NextStart(c, k) - c.frags[k].End()
  }

  /** `k` is the first fragment at or after `i` whose following gap holds `n` bytes. */
  predicate FirstFitFrom(c: Chunk, n: nat, i: nat, k: nat) {
    && i <= k < |c.frags|
    && n <= GapAfter(c, k)
    && forall j :: i <= j < k ==> GapAfter(c, j) < n
  }

  /** The chunk with an `n`-byte fragment inserted directly after fragment `k`. */
  function PlacedAfter(c: Chunk, n: nat, k: nat): Engaged
    requires k < |c.frags|
  {
    Placed(c.(frags := Insert(c.frags, k + 1, Fragment(c.frags[k].End(), n))), c.frags[k].End())
  }

  lemma GapTestIsGap(c: Chunk, n: nat, k: nat)
    requires WellFormed(c) && k < |c.frags|
    ensures 0 <= GapAfter(c, k) <= c.size
    ensures Fits(n, c.frags[k].End(), NextStart(c, k)) <==> n <= GapAfter(c, k)
  {
    assert InBuffer(c, c.frags[k]);
    if k + 1 < |c.frags| {
      assert InBuffer(c, c.frags[k + 1]);
    }
  }

  // ---------------------------------------------------------------------
  // engage
  // ---------------------------------------------------------------------

  /** In a chunk without fragments, `engage` places the request at the buffer start. */
  lemma EngageEmptyChunk(c: Chunk, n: nat)
    requires Empty(c) && n <= c.size
    ensures Engage(c, n) == Success(Placed(c.(frags := [Fragment(c.data, n)]), c.data))
  {
  }

  /** The scan from `i` is first-fit over the gaps after fragments `i`, `i + 1`, ... */
  lemma {:induction false} ScanIsFirstFit(c: Chunk, n: nat, i: nat)
    requires WellFormed(c) && i < |c.frags|
    ensures Scan(c, n, i) == NoRoom <==> forall j :: i <= j < |c.frags| ==> GapAfter(c, j) < n
    ensures forall k: nat :: FirstFitFrom(c, n, i, k) ==> Scan(c, n, i) == PlacedAfter(c, n, k)
    decreases |c.frags| - i
  {
    GapTestIsGap(c, n, i);
    if i + 1 < |c.frags| {
      assert InBuffer(c, c.frags[i + 1]);
      if n <= GapAfter(c, i) {
        assert Scan(c, n, i) == PlacedAfter(c, n, i);
        forall k: nat | FirstFitFrom(c, n, i, k)
          ensures k == i
        {
        }
      } else {
        ScanIsFirstFit(c, n, i + 1);
        forall k: nat | FirstFitFrom(c, n, i, k)
          ensures FirstFitFrom(c, n, i + 1, k)
        {
        }
      }
    } else {
      var f := Fragment(c.frags[i].End(), n);
      assert c.frags[..i + 1] + [f] == Insert(c.frags, i + 1, f);
    }
  }

  /**
   * `engage` on a chunk with fragments is first-fit: it reports no room
   * exactly when no gap (between neighbours or after the last fragment)
   * holds `n` bytes, and otherwise inserts the fragment at the start of the
   * first gap that does.
   */
  lemma EngageIsFirstFit(c: Chunk, n: nat)
    requires WellFormed(c) && !Empty(c) && n <= c.size
    ensures Engage(c, n) == Success(NoRoom) <==> forall j :: 0 <= j < |c.frags| ==> GapAfter(c, j) < n
    ensures forall k: nat :: FirstFitFrom(c, n, 0, k) ==> Engage(c, n) == Success(PlacedAfter(c, n, k))
  {
    ScanIsFirstFit(c, n, 0);
  }

  /** Some gap holds `n` bytes exactly when a first such gap exists. */
  lemma FirstFitExists(c: Chunk, n: nat, i: nat, j: nat)
    requires i <= j < |c.frags| && n <= GapAfter(c, j)
    ensures exists k: nat :: FirstFitFrom(c, n, i, k)
    decreases j - i
  {
    if forall m :: i <= m < j ==> GapAfter(c, m) < n {
      assert FirstFitFrom(c, n, i, j);
    } else {
      var m :| i <= m < j && n <= GapAfter(c, m);
      FirstFitExists(c, n, i, m);
    }
  }

  /** Inserting a fragment that fits the gap after fragment `k` keeps the invariant. */
  lemma PlacedAfterWellFormed(c: Chunk, n: nat, k: nat)
    requires WellFormed(c) && k < |c.frags| && 0 < n <= GapAfter(c, k)
    ensures WellFormed(PlacedAfter(c, n, k).chunk)
  {
    var c' := PlacedAfter(c, n, k).chunk;
    var f := Fragment(c.frags[k].End(), n);
    assert InBuffer(c, c.frags[k]);
    if k + 1 < |c.frags| {
      assert InBuffer(c, c.frags[k + 1]);
    }
    forall i | 0 <= i < |c'.frags|
      ensures InBuffer(c', c'.frags[i])
    {
      if i > k + 1 {
        assert c'.frags[i] == c.frags[i - 1];
      }
    }
    forall i, j | 0 <= i < j < |c'.frags|
      ensures c'.frags[i].End() <= c'.frags[j].ptr
    {
      if j <= k {
      } else if j == k + 1 {
        assert i <= k;
        if i < k {
          assert c.frags[i].End() <= c.frags[k].ptr;
        }
      } else if i == k + 1 {
        assert c'.frags[j] == c.frags[j - 1];
        if j - 1 > k + 1 {
          assert c.frags[k + 1].End() <= c.frags[j - 1].ptr;
        }
      } else if i < k + 1 {
        assert c'.frags[j] == c.frags[j - 1];
      } else {
        assert c'.frags[i] == c.frags[i - 1] && c'.frags[j] == c.frags[j - 1];
      }
    }
  }

  /**
   * On a well-formed chunk a successful `engage` of a positive size keeps
   * the list sorted, disjoint and inside the buffer, places the new
   * fragment inside the buffer and changes nothing else in the list.
   */
  lemma EngagePreservesWellFormed(c: Chunk, n: nat)
    requires WellFormed(c) && 0 < n
    requires Engage(c, n).Success? && Engage(c, n).value.Placed?
    ensures var e := Engage(c, n).value;
            && WellFormed(e.chunk)
            && c.data <= e.addr && e.addr + n <= c.Limit()
            && exists k :: 0 <= k <= |c.frags| && e.chunk.frags == Insert(c.frags, k, Fragment(e.addr, n))
  {
    var e := Engage(c, n).value;
    if Empty(c) {
      assert e.chunk.frags == Insert(c.frags, 0, Fragment(e.addr, n));
    } else {
      ScanPreservesWellFormed(c, n);
    }
  }

  /** The placement found by the scan of a non-empty well-formed chunk. */
  lemma ScanPreservesWellFormed(c: Chunk, n: nat)
    requires WellFormed(c) && 0 < n && !Empty(c) && Scan(c, n, 0).Placed?
    ensures var e := Scan(c, n, 0);
            && WellFormed(e.chunk)
            && c.data <= e.addr && e.addr + n <= c.Limit()
            && exists k :: 0 <= k <= |c.frags| && e.chunk.frags == Insert(c.frags, k, Fragment(e.addr, n))
  {
    ScanIsFirstFit(c, n, 0);
    var j :| 0 <= j < |c.frags| && n <= GapAfter(c, j);
    FirstFitExists(c, n, 0, j);
    var k: nat :| FirstFitFrom(c, n, 0, k);
    PlacedAfterWellFormed(c, n, k);
    GapTestIsGap(c, n, k);
    assert InBuffer(c, c.frags[k]);
    if k + 1 < |c.frags| {
      assert InBuffer(c, c.frags[k + 1]);
    }
  }

  // ---------------------------------------------------------------------
  // release
  // ---------------------------------------------------------------------

  /**
   * The release loop walks past every fragment before `k` when `p` lies at
   * or after the start of fragment `k`.
   */
  lemma {:induction false} ReleaseFromSkips(c: Chunk, p: nat, n: nat, i: nat, k: nat)
    requires WellFormed(c) && i < k < |c.frags| && c.frags[k].ptr <= p
    ensures ReleaseFrom(c, p, n, i) == ReleaseFrom(c, p, n, k - 1)
    decreases k - i
  {
    if i + 1 < k {
      var f := c.frags[i + 1];
      assert InBuffer(c, f);
      assert f.End() <= c.frags[k].ptr;
      ReleaseFromSkips(c, p, n, i + 1, k);
    }
  }

  /** `release` reaches fragment `k` when `p` lies at or after its start. */
  lemma ReleaseReaches(c: Chunk, p: nat, n: nat, k: nat)
    requires WellFormed(c) && 0 < k < |c.frags| && c.frags[k].ptr <= p
    ensures Release(c, p, n) == ReleaseFrom(c, p, n, k - 1)
  {
    assert InBuffer(c, c.frags[0]);
    assert c.frags[0].End() <= c.frags[k].ptr;
    ReleaseFromSkips(c, p, n, 0, k);
  }

  /**
   * Releasing the head fragment with its exact length empties the chunk,
   * whatever fragments followed it.
   */
  lemma ReleaseHeadExact(c: Chunk)
    requires !Empty(c) && c.frags[0].ptr != NULL
    ensures Empty(Release(c, c.frags[0].ptr, c.frags[0].len))
  {
  }

  /**
   * Releasing a non-head fragment with its exact length removes that
   * fragment and nothing else, and keeps the invariant.
   */
  lemma ReleaseExactNonHead(c: Chunk, k: nat)
    requires WellFormed(c) && 0 < k < |c.frags|
    ensures Release(c, c.frags[k].ptr, c.frags[k].len) == c.(frags := Remove(c.frags, k))
    ensures WellFormed(Release(c, c.frags[k].ptr, c.frags[k].len))
  {
    ReleaseReaches(c, c.frags[k].ptr, c.frags[k].len, k);
    assert InBuffer(c, c.frags[k]);
    var c' := c.(frags := Remove(c.frags, k));
    forall i, j | 0 <= i < j < |c'.frags|
      ensures c'.frags[i].End() <= c'.frags[j].ptr
    {
      if j >= k {
        assert c'.frags[j] == c.frags[j + 1];
        if i >= k {
          assert c'.frags[i] == c.frags[i + 1];
        }
      }
    }
    forall i | 0 <= i < |c'.frags|
      ensures InBuffer(c', c'.frags[i])
    {
      if i >= k {
        assert c'.frags[i] == c.frags[i + 1];
      }
    }
  }

  /**
   * Releasing a proper prefix of a fragment advances its start by `n` but
   * leaves its length as it was; the rest of the list is untouched.
   */
  lemma ReleasePrefix(c: Chunk, k: nat, n: nat)
    requires WellFormed(c) && k < |c.frags| && n < c.frags[k].len
    ensures Release(c, c.frags[k].ptr, n)
         == c.(frags := c.frags[k := Fragment(c.frags[k].ptr + n, c.frags[k].len)])
  {
    assert InBuffer(c, c.frags[k]);
    if k > 0 {
      ReleaseReaches(c, c.frags[k].ptr, n, k);
    }
  }

  /** A length longer than the fragment starting at `p` makes `release` a no-op. */
  lemma ReleaseOverlong(c: Chunk, k: nat, n: nat)
    requires WellFormed(c) && k < |c.frags| && c.frags[k].len < n
    ensures Release(c, c.frags[k].ptr, n) == c
  {
    assert InBuffer(c, c.frags[k]);
    if k > 0 {
      ReleaseReaches(c, c.frags[k].ptr, n, k);
    }
  }

  /**
   * Releasing [p, p + n) strictly inside fragment `k` splits it: the
   * fragment is cut to end at `p`, and the suffix record is `len - n` bytes
   * long and starts at `ptr + len - n - (p - ptr)`. So the suffix is longer
   * than the bytes really left after `p + n` by the offset `p - ptr`, and it
   * starts at `p + n` only when the fragment is twice `p + n - ptr` long.
   */
  lemma ReleaseInterior(c: Chunk, k: nat, p: nat, n: nat)
    requires WellFormed(c) && k < |c.frags|
    requires c.frags[k].ptr < p && p + n < c.frags[k].End()
    ensures var r := Release(c, p, n);
            var f := c.frags[k];
            && |r.frags| == |c.frags| + 1
            && r.frags[..k] == c.frags[..k]
            && r.frags[k] == Fragment(f.ptr, p - f.ptr)
            && r.frags[k + 1] == Fragment(f.ptr + (f.len - n - (p - f.ptr)), f.len - n)
            && r.frags[k + 1].len == (f.End() - (p + n)) + (p - f.ptr)
            && (r.frags[k + 1].ptr == p + n <==> f.len == 2 * (p + n - f.ptr))
            && r.frags[k + 2..] == c.frags[k + 1..]
  {
    if k > 0 {
      ReleaseReaches(c, p, n, k);
      assert InBuffer(c, c.frags[0]);
      assert c.frags[0].End() <= c.frags[k].ptr;
    }
    assert Release(c, p, n) == Split(c, k, p, n);
  }

  /**
   * When no fragment starts at `p` and none strictly contains [p, p + n),
   * `release` leaves the chunk as it was.
   */
  lemma ReleaseUnmatched(c: Chunk, p: nat, n: nat)
    requires WellFormed(c)
    requires forall k :: 0 <= k < |c.frags| ==> c.frags[k].ptr != p
    requires forall k :: 0 <= k < |c.frags| ==> !(c.frags[k].ptr < p && p + n < c.frags[k].End())
    ensures Release(c, p, n) == c
  {
    if !Empty(c) {
      assert InBuffer(c, c.frags[0]);
      ReleaseFromUnmatched(c, p, n, 0);
    }
  }

  lemma {:induction false} ReleaseFromUnmatched(c: Chunk, p: nat, n: nat, i: nat)
    requires i < |c.frags|
    requires forall k :: i < k < |c.frags| ==> c.frags[k].ptr != p
    requires forall k :: i < k < |c.frags| ==> !(c.frags[k].ptr < p && p + n < c.frags[k].End())
    ensures ReleaseFrom(c, p, n, i) == c
    decreases |c.frags| - i
  {
    if i + 1 < |c.frags| && c.frags[i + 1].ptr != NULL {
      ReleaseFromUnmatched(c, p, n, i + 1);
    }
  }

  /**
   * Engaging and then releasing the same bytes gives back the original
   * chunk: in an empty chunk through the head case, otherwise through the
   * exact non-head case, since the scan never places before the head. A
   * zero-byte request is placed right after the head and removed the same way.
   */
  lemma EngageReleaseRoundTrip(c: Chunk, n: nat)
    requires WellFormed(c)
    requires Engage(c, n).Success? && Engage(c, n).value.Placed?
    ensures Release(Engage(c, n).value.chunk, Engage(c, n).value.addr, n) == c
  {
    if !Empty(c) {
      ScanIsFirstFit(c, n, 0);
      var j :| 0 <= j < |c.frags| && n <= GapAfter(c, j);
      FirstFitExists(c, n, 0, j);
      var k: nat :| FirstFitFrom(c, n, 0, k);
      assert Engage(c, n).value == PlacedAfter(c, n, k);
      if n == 0 {
        ZeroPlacedRoundTrip(c, k);
      } else {
        PlacedAfterRoundTrip(c, n, k);
      }
    }
  }

  /**
   * A zero-byte request always fits after the head of a non-empty chunk, so
   * `engage(0)` records an empty fragment where the head ends.
   */
  lemma EngageZero(c: Chunk)
    requires WellFormed(c) && !Empty(c)
    ensures Engage(c, 0) == Success(PlacedAfter(c, 0, 0))
    ensures PlacedAfter(c, 0, 0).addr == c.frags[0].End() > NULL
  {
    GapTestIsGap(c, 0, 0);
    assert FirstFitFrom(c, 0, 0, 0);
    EngageIsFirstFit(c, 0);
    assert InBuffer(c, c.frags[0]);
  }

  /**
   * The first fit of a zero-byte request is the head, and releasing the
   * empty fragment placed after it removes it again.
   */
  lemma ZeroPlacedRoundTrip(c: Chunk, k: nat)
    requires WellFormed(c) && FirstFitFrom(c, 0, 0, k)
    ensures k == 0
    ensures Release(PlacedAfter(c, 0, k).chunk, PlacedAfter(c, 0, k).addr, 0) == c
  {
    GapTestIsGap(c, 0, 0);
    assert InBuffer(c, c.frags[0]);
    var e := PlacedAfter(c, 0, 0);
    assert e.chunk.frags[0] == c.frags[0];
    assert e.chunk.frags[1] == Fragment(e.addr, 0);
    assert Release(e.chunk, e.addr, 0) == ReleaseFrom(e.chunk, e.addr, 0, 0);
    RemoveInsert(c.frags, 1, Fragment(e.addr, 0));
  }

  /** Releasing a fragment just placed after fragment `k` removes it again. */
  lemma PlacedAfterRoundTrip(c: Chunk, n: nat, k: nat)
    requires WellFormed(c) && k < |c.frags| && 0 < n <= GapAfter(c, k)
    ensures Release(PlacedAfter(c, n, k).chunk, PlacedAfter(c, n, k).addr, n) == c
  {
    var e := PlacedAfter(c, n, k);
    PlacedAfterWellFormed(c, n, k);
    ReleaseExactNonHead(e.chunk, k + 1);
    RemoveInsert(c.frags, k + 1, Fragment(e.addr, n));
  }

  // ---------------------------------------------------------------------
  // Where prefix release and split leave the invariant
  // ---------------------------------------------------------------------

  /**
   * A prefix release can make a fragment overlap its successor: the head
   * [1, 5) advanced by 2 still claims 4 bytes and runs into [5, 9).
   */
  lemma PrefixReleaseBreaksWellFormed()
    ensures var c := Chunk(1, 8, [Fragment(1, 4), Fragment(5, 4)]);
            WellFormed(c) && !WellFormed(Release(c, 1, 2))
  {
    var c := Chunk(1, 8, [Fragment(1, 4), Fragment(5, 4)]);
    var r := Release(c, 1, 2);
    assert r.frags == [Fragment(3, 4), Fragment(5, 4)];
    assert r.frags[0].End() > r.frags[1].ptr;
  }

  /**
   * After such an overlap the gap before the next fragment is negative;
   * converted to `size_t` it is huge, so `engage` places a new fragment
   * inside the live fragment [5, 9).
   */
  lemma EngageIntoNegativeGap()
    ensures var c := Chunk(1, 8, [Fragment(3, 4), Fragment(5, 4)]);
            Engage(c, 1) == Success(Placed(c.(frags := [Fragment(3, 4), Fragment(7, 1), Fragment(5, 4)]), 7))
  {
    var c := Chunk(1, 8, [Fragment(3, 4), Fragment(5, 4)]);
    assert Fits(1, 7, 5);
    assert Insert(c.frags, 1, Fragment(7, 1)) == [Fragment(3, 4), Fragment(7, 1), Fragment(5, 4)];
  }

  /**
   * An interior split can make the suffix overlap the next fragment:
   * releasing [3, 5) from [1, 11) records the suffix as [7, 15), which runs
   * into [11, 15).
   */
  lemma SplitBreaksWellFormed()
    ensures var c := Chunk(1, 16, [Fragment(1, 10), Fragment(11, 4)]);
            && WellFormed(c)
            && Release(c, 3, 2).frags == [Fragment(1, 2), Fragment(7, 8), Fragment(11, 4)]
            && !WellFormed(Release(c, 3, 2))
  {
    var c := Chunk(1, 16, [Fragment(1, 10), Fragment(11, 4)]);
    assert Release(c, 3, 2) == Split(c, 0, 3, 2);
    var r := Release(c, 3, 2);
    assert r.frags == [Fragment(1, 2), Fragment(7, 8), Fragment(11, 4)];
    assert r.frags[1].End() > r.frags[2].ptr;
  }

  /** On a well-formed chunk, `contains` holds for every byte of every fragment. */
  lemma ContainsFragments(c: Chunk, k: nat)
    requires WellFormed(c) && k < |c.frags|
    ensures forall a :: c.frags[k].ptr <= a < c.frags[k].End() ==> Contains(c, a)
  {
    assert InBuffer(c, c.frags[k]);
  }

  // ---------------------------------------------------------------------
  // Zero-byte requests
  // ---------------------------------------------------------------------

  /**
   * `engage(0)` passes every gap test, so it records an empty fragment at
   * the end of the head: [1, 9) [9, 17) gains [9, 9) between the two. A
   * later release of the real fragment at 9 meets the empty one first,
   * whose length does not match, and frees nothing.
   */
  lemma ZeroEngageHidesFragment()
    ensures var c := Chunk(1, 16, [Fragment(1, 8), Fragment(9, 8)]);
            var c' := c.(frags := [Fragment(1, 8), Fragment(9, 0), Fragment(9, 8)]);
            && WellFormed(c)
            && Engage(c, 0) == Success(Placed(c', 9))
            && Release(c', 9, 8) == c'
  {
    var c := Chunk(1, 16, [Fragment(1, 8), Fragment(9, 8)]);
    var c' := c.(frags := [Fragment(1, 8), Fragment(9, 0), Fragment(9, 8)]);
    assert Insert(c.frags, 1, Fragment(9, 0)) == c'.frags;
    assert ReleaseFrom(c', 9, 8, 0) == c';
  }
}

=== FILE: handles.dfy ===
/**
 * Allocator handles and the shared `chunk_shares` record they point to
 * (constructor, copy constructor, `operator=`, destructor, `allocate`,
 * `deallocate`, `reference_count` and `chunk_count` of `chunk_allocator`).
 * Records live in a registry keyed by their address; a handle is the
 * address of its record, so copies of a handle are equal values.
 */
module Handles {
  import opened Wrappers
  import opened Chunks
  import opened ChunkChain

  /** `chunk_shares`: the chain, newest first, and the number of handles using it. */
  datatype Shares = Shares(chain: seq<Chunk>, counter: nat)

  /** A `chunk_allocator` object: the address of its `chunk_shares` record. */
  datatype Handle = Handle(shares: nat)

  /** The live `chunk_shares` records by address. */
  type Registry = map<nat, Shares>

  /** Records that are untouched apart from the one at `at`. */
  predicate OthersUnchanged(reg: Registry, reg': Registry, at: nat) {
    forall a :: a in reg && a != at ==> a in reg' && reg'[a] == reg[a]
  }

  /** `chunk_allocator()`: a new record at `at` with no chunks and counter 1. */
  function Construct(reg: Registry, at: nat): (r: (Registry, Handle))
    requires at !in reg
    ensures r.1.shares in r.0 && r.0[r.1.shares].counter == 1 && r.0[r.1.shares].chain == []
    ensures r.0.Keys == reg.Keys + {at} && OthersUnchanged(reg, r.0, at)
  {
    (reg[at := Shares([], 1)], Handle(at))
  }

  /**
   * The copy constructor: the copy uses the same record, whose counter goes
   * up by one; the chain is shared, not copied.
   */
  function Copy(reg: Registry, h: Handle): (r: (Registry, Handle))
    requires h.shares in reg
    ensures r.1.shares == h.shares && r.0.Keys == reg.Keys
    ensures r.0[h.shares].counter == reg[h.shares].counter + 1
    ensures r.0[h.shares].chain == reg[h.shares].chain
    ensures OthersUnchanged(reg, r.0, h.shares)
  {
    var s := reg[h.shares];
    (reg[h.shares := s.(counter := s.counter + 1)], Handle(h.shares))
  }

  /**
   * The destructor: the counter goes down by one, and when it reaches zero
   * the record and with it the whole chain are released.
   */
  function Destroy(reg: Registry, h: Handle): (r: Registry)
    requires h.shares in reg && reg[h.shares].counter >= 1
    ensures reg[h.shares].counter == 1 ==> r == map a | a in reg && a != h.shares :: reg[a]
    ensures reg[h.shares].counter > 1 ==>
              && r.Keys == reg.Keys
              && r[h.shares] == reg[h.shares].(counter := reg[h.shares].counter - 1)
    ensures OthersUnchanged(reg, r, h.shares)
  {
    var s := reg[h.shares];
    if s.counter - 1 == 0 then
      reg - {h.shares}
    else
      reg[h.shares := s.(counter := s.counter - 1)]
  }

  /**
   * The destructor with its teardown loop: the record's update is `Destroy`,
   * and the loop frees every chunk of the chain, newest first, exactly when
   * the last handle goes; otherwise nothing is freed.
   */
  method DestroyHandle(reg: Registry, h: Handle) returns (reg': Registry, freed: seq<nat>)
    requires h.shares in reg && reg[h.shares].counter >= 1
    ensures reg' == Destroy(reg, h)
    ensures reg[h.shares].counter == 1 ==>
              && |freed| == |reg[h.shares].chain|
              && forall i :: 0 <= i < |freed| ==> freed[i] == reg[h.shares].chain[i].data
    ensures reg[h.shares].counter > 1 ==> freed == []
  {
    freed := [];
    if reg[h.shares].counter == 1 {
      freed := TearDown(reg[h.shares].chain);
    }
    reg' := Destroy(reg, h);
  }

  /**
   * The chain teardown of the destructor: free the newest chunk, make its
   * predecessor the newest, and repeat until none is left. Returns the
   * buffers in the order they are freed.
   */
  method TearDown(chain: seq<Chunk>) returns (freed: seq<nat>)
    ensures |freed| == |chain|
    ensures forall i :: 0 <= i < |chain| ==> freed[i] == chain[i].data
  {
    freed := [];
    var tail := 0;
    while tail < |chain|
      invariant tail <= |chain| && |freed| == tail
      invariant forall i :: 0 <= i < tail ==> freed[i] == chain[i].data
    {
      freed := freed + [chain[tail].data];
      tail := tail + 1;
    }
  }

  /**
   * `operator=`. On self-assignment it returns `*this`. Otherwise it copies
   * `*this` into a temporary and returns a reference to that temporary,
   * which is destroyed as the return statement ends; the returned handle
   * value here stands for that reference. `other` is never looked at, and
   * the assigned handle keeps its own record.
   */
  function Assign(reg: Registry, self: Handle, other: Handle, sameObject: bool): (r: (Registry, Handle))
    requires self.shares in reg && reg[self.shares].counter >= 1
    ensures r.1 == self && r.0 == reg
  {
    if sameObject then
      (reg, self)
    else
      var (reg1, temporary) := Copy(reg, self);
      assert reg[self.shares := reg[self.shares]] == reg;
      (Destroy(reg1, temporary), self)
  }

  /**
   * `reference_count`: the shared record's counter. `ReferenceCountIsLive`
   * states that it is the number of live handles using the record.
   */
  function ReferenceCount(reg: Registry, h: Handle): nat
    requires h.shares in reg
  {
    reg[h.shares].counter
  }

  /**
   * `chunk_count` through handle `h`: the number of chunks in the shared
   * chain, which `ChunkCount` walks. Every handle on the record sees it.
   */
  function ChunkCountOf(reg: Registry, h: Handle): nat
    requires h.shares in reg
  {
    |reg[h.shares].chain|
  }

  /**
   * `allocate(count)` through handle `h` for elements of `elemSize` bytes:
   * runs on the shared chain, which every handle of the record then sees.
   */
  function AllocateVia(reg: Registry, h: Handle, elemSize: nat, count: nat, newBase: nat)
    : (r: (Registry, Result<nat, AllocError>))
    requires h.shares in reg
    ensures r.0.Keys == reg.Keys && OthersUnchanged(reg, r.0, h.shares)
    ensures r.0[h.shares].counter == reg[h.shares].counter
    ensures |reg[h.shares].chain| <= |r.0[h.shares].chain| <= |reg[h.shares].chain| + 1
  {
    var s := reg[h.shares];
    var (chain', res) := Allocate(s.chain, RequestBytes(elemSize, count), newBase);
    (reg[h.shares := s.(chain := chain')], res)
  }

  /** `deallocate(p, count)` through handle `h`, on the shared chain. */
  function DeallocateVia(reg: Registry, h: Handle, p: nat, elemSize: nat, count: nat): (r: Registry)
    requires h.shares in reg
    ensures r.Keys == reg.Keys && OthersUnchanged(reg, r, h.shares)
    ensures r[h.shares].counter == reg[h.shares].counter
    ensures |reg[h.shares].chain| - 1 <= |r[h.shares].chain| <= |reg[h.shares].chain|
  {
    var s := reg[h.shares];
    reg[h.shares := s.(chain := Deallocate(s.chain, p, RequestBytes(elemSize, count)))]
  }

  // ---------------------------------------------------------------------
  // The counter equals the number of live handles
  // ---------------------------------------------------------------------

  /** The registry together with every live `chunk_allocator` object. */
  datatype World = World(reg: Registry, handles: seq<Handle>)

  /**
   * Reference counting is exact: every live handle has a record, and each
   * record's counter is the number of live handles that use it (at least one).
   */
  predicate Counted(w: World) {
    && (forall i :: 0 <= i < |w.handles| ==> w.handles[i].shares in w.reg)
    && (forall a :: a in w.reg ==> w.reg[a].counter == multiset(w.handles)[Handle(a)] >= 1)
  }

  function WorldConstruct(w: World, at: nat): World
    requires at !in w.reg
  {
    var (reg', h) := Construct(w.reg, at);
    World(reg', w.handles + [h])
  }

  function WorldCopy(w: World, k: nat): World
    requires k < |w.handles| && w.handles[k].shares in w.reg
  {
    var (reg', h) := Copy(w.reg, w.handles[k]);
    World(reg', w.handles + [h])
  }

  function WorldDestroy(w: World, k: nat): World
    requires k < |w.handles| && w.handles[k].shares in w.reg && w.reg[w.handles[k].shares].counter >= 1
  {
    World(Destroy(w.reg, w.handles[k]), w.handles[..k] + w.handles[k + 1..])
  }

  /** Constructing a handle keeps the count exact; the new record has counter 1. */
  lemma ConstructCounted(w: World, at: nat)
    requires Counted(w) && at !in w.reg
    ensures Counted(WorldConstruct(w, at))
    ensures ReferenceCount(WorldConstruct(w, at).reg, Handle(at)) == 1
  {
    var w' := WorldConstruct(w, at);
    forall i | 0 <= i < |w.handles|
      ensures w.handles[i] != Handle(at)
    {
    }
    assert Handle(at) !in multiset(w.handles);
    forall a | a in w'.reg
      ensures w'.reg[a].counter == multiset(w'.handles)[Handle(a)] >= 1
    {
      assert multiset(w'.handles) == multiset(w.handles) + multiset{Handle(at)};
    }
  }

  /** Copying a handle keeps the count exact: its record gains exactly one. */
  lemma CopyCounted(w: World, k: nat)
    requires Counted(w) && k < |w.handles|
    ensures Counted(WorldCopy(w, k))
    ensures ReferenceCount(WorldCopy(w, k).reg, w.handles[k]) == ReferenceCount(w.reg, w.handles[k]) + 1
  {
    var w' := WorldCopy(w, k);
    assert multiset(w'.handles) == multiset(w.handles) + multiset{w.handles[k]};
  }

  /**
   * Destroying a handle keeps the count exact: its record loses exactly one
   * and is released with its chain when no handle is left.
   */
  lemma DestroyCounted(w: World, k: nat)
    requires Counted(w) && k < |w.handles|
    ensures Counted(WorldDestroy(w, k))
    ensures var a := w.handles[k].shares;
            && (a in WorldDestroy(w, k).reg <==> ReferenceCount(w.reg, w.handles[k]) > 1)
            && (a in WorldDestroy(w, k).reg ==>
                  ReferenceCount(WorldDestroy(w, k).reg, w.handles[k]) == ReferenceCount(w.reg, w.handles[k]) - 1)
  {
    var h := w.handles[k];
    var w' := WorldDestroy(w, k);
    RemoveOne(w.handles, k);
    forall i | 0 <= i < |w'.handles|
      ensures w'.handles[i].shares in w'.reg
    {
      var g := w'.handles[i];
      assert g in multiset(w'.handles);
      if g.shares == h.shares {
        assert multiset(w.handles)[h] >= 2;
      }
    }
  }

  /** With exact counting, `reference_count` is the number of live handles on the record. */
  lemma ReferenceCountIsLive(w: World, k: nat)
    requires Counted(w) && k < |w.handles|
    ensures ReferenceCount(w.reg, w.handles[k]) == multiset(w.handles)[w.handles[k]] >= 1
  {
  }

  /** Dropping the handle at `k` takes exactly one copy of it out of the multiset. */
  lemma RemoveOne(handles: seq<Handle>, k: nat)
    requires k < |handles|
    ensures multiset(handles) == multiset(handles[..k] + handles[k + 1..]) + multiset{handles[k]}
  {
    assert handles == handles[..k] + [handles[k]] + handles[k + 1..];
  }

  /** Assignment changes neither the records nor which record each handle uses. */
  lemma AssignCounted(w: World, k: nat, j: nat, sameObject: bool)
    requires Counted(w) && k < |w.handles| && j < |w.handles|
    ensures var (reg', h') := Assign(w.reg, w.handles[k], w.handles[j], sameObject);
            reg' == w.reg && h' == w.handles[k] && Counted(World(reg', w.handles[k := h']))
  {
    assert w.handles[k := w.handles[k]] == w.handles;
  }
}

=== FILE: nim.dfy ===
/**
 * The first-move rules of the Nim solver (`HeapIndex`, `RocksCount` and
 * `Game` in game.h). The templates compute over `size_t`, modelled as the
 * integers below 2^64 with wrap-around subtraction written out; their
 * results are `ssize_t`. The nim-sum `XorSum<Heaps...>` comes from a header
 * that is not part of this model, so `Game` takes it as the parameter
 * `sum`; `NimSum` below is this model's own reference for it.
 */
module NimFirstMove {

  /** 2^63 and 2^64, bounds of `ssize_t` and `size_t`. */
  const TWO_63: int := 0x8000_0000_0000_0000
  const TWO_64: int := 0x1_0000_0000_0000_0000

  /** `size_t`. */
  type SizeT = x: int | 0 <= x < TWO_64

  function Pow2(k: nat): (p: nat)
    ensures p >= 1
  {
    if k == 0 then 1 else 2 * Pow2(k - 1)
  }

  lemma {:induction false} Pow2Add(a: nat, b: nat)
    ensures Pow2(a + b) == Pow2(a) * Pow2(b)
    decreases a
  {
    if a > 0 {
      Pow2Add(a - 1, b);
    }
  }

  /** `size_t` has 64 bits. */
  lemma SizeTBits()
    ensures Pow2(64) == TWO_64
  {
    assert Pow2(2) == 4;
    Pow2Add(2, 2);
    assert Pow2(4) == 16;
    Pow2Add(4, 4);
    assert Pow2(8) == 0x100;
    Pow2Add(8, 8);
    assert Pow2(16) == 0x1_0000;
    Pow2Add(16, 16);
    assert Pow2(32) == 0x1_0000_0000;
    Pow2Add(32, 32);
  }

  /** Unsigned `size_t` subtraction: the difference modulo 2^64. */
  function Sub(a: SizeT, b: SizeT): (r: SizeT)
    ensures b <= a ==> r == a - b
    ensures a < b ==> r == a - b + TWO_64
  {
    (a - b) % TWO_64
  }

  /** A `size_t` value read as `ssize_t` (two's complement). */
  function ToSsize(x: SizeT): (r: int)
    ensures -TWO_63 <= r < TWO_63
    ensures r % TWO_64 == x
    ensures x < TWO_63 ==> r == x
  {
    if x < TWO_63 then x else x - TWO_64
  }

  /** `bool` promoted to an integer. */
  function B2I(b: bool): int {
    if b then 1 else 0
  }

  /** `c * x + !c * y` picks `x` when `c` holds and `y` otherwise. */
  lemma PickByFlag(c: bool, x: int, y: int)
    ensures B2I(c) * x + B2I(!c) * y == if c then x else y
  {
  }

  // ---------------------------------------------------------------------
  // Bitwise exclusive or
  // ---------------------------------------------------------------------

  /** Bitwise exclusive or of two naturals, lowest bit first. */
  function Xor(a: nat, b: nat): nat
    decreases a + b
  {
    if a == 0 && b == 0 then 0 else 2 * Xor(a / 2, b / 2) + (a + b) % 2
  }

  /** The lowest bit of `a ^ b` is the parity of theirs; the rest is the xor of the rest. */
  lemma XorBits(a: nat, b: nat)
    ensures Xor(a, b) % 2 == (a + b) % 2
    ensures Xor(a, b) / 2 == Xor(a / 2, b / 2)
  {
    if !(a == 0 && b == 0) {
      HalfAndParity(Xor(a / 2, b / 2), (a + b) % 2);
    }
  }

  /** Dividing `2 * x + p` by two, for a bit `p`. */
  lemma HalfAndParity(x: nat, p: nat)
    requires p < 2
    ensures (2 * x + p) % 2 == p && (2 * x + p) / 2 == x
  {
  }

  /** Two numbers below 2^k have their xor below 2^k. */
  lemma {:induction false} XorBelow(a: nat, b: nat, k: nat)
    requires a < Pow2(k) && b < Pow2(k)
    ensures Xor(a, b) < Pow2(k)
    decreases k
  {
    if k > 0 && !(a == 0 && b == 0) {
      XorBelow(a / 2, b / 2, k - 1);
    }
  }

  lemma {:induction false} XorZero(a: nat)
    ensures Xor(a, 0) == a && Xor(0, a) == a
    decreases a
  {
    if a > 0 {
      XorZero(a / 2);
    }
  }

  lemma {:induction false} XorSelf(a: nat)
    ensures Xor(a, a) == 0
    decreases a
  {
    if a > 0 {
      XorSelf(a / 2);
    }
  }

  lemma {:induction false} XorComm(a: nat, b: nat)
    ensures Xor(a, b) == Xor(b, a)
    decreases a + b
  {
    if !(a == 0 && b == 0) {
      XorComm(a / 2, b / 2);
    }
  }

  lemma {:induction false} XorAssoc(a: nat, b: nat, c: nat)
    ensures Xor(Xor(a, b), c) == Xor(a, Xor(b, c))
    decreases a + b + c
  {
    if !(a == 0 && b == 0 && c == 0) {
      var ab, bc := Xor(a, b), Xor(b, c);
      var l, r := Xor(ab, c), Xor(a, bc);
      HalvesShrink(a, b, c);
      XorAssoc(a / 2, b / 2, c / 2);
      XorBits(a, b);
      XorBits(b, c);
      XorBits(ab, c);
      XorBits(a, bc);
      ParitySum(a, b, c, ab, bc);
      HalvesDetermine(l, r);
    }
  }

  lemma HalvesShrink(a: nat, b: nat, c: nat)
    requires !(a == 0 && b == 0 && c == 0)
    ensures a / 2 + b / 2 + c / 2 < a + b + c
  {
  }

  lemma ParitySum(a: nat, b: nat, c: nat, ab: nat, bc: nat)
    requires ab % 2 == (a + b) % 2 && bc % 2 == (b + c) % 2
    ensures (ab + c) % 2 == (a + bc) % 2
  {
  }

  lemma HalvesDetermine(x: nat, y: nat)
    requires x / 2 == y / 2 && x % 2 == y % 2
    ensures x == y
  {
  }

  /** `x ^ h == h` only for `x == 0`. */
  lemma XorFixed(x: nat, h: nat)
    requires Xor(x, h) == h
    ensures x == 0
  {
    XorAssoc(x, h, h);
    XorSelf(h);
    XorZero(x);
  }

  /** `Sum ^ Head` on `size_t`. */
  function BitXor(a: SizeT, b: SizeT): (r: SizeT)
    ensures r == Xor(a, b)
  {
    SizeTBits();
    XorBelow(a, b, 64);
    Xor(a, b)
  }

  // ---------------------------------------------------------------------
  // The templates
  // ---------------------------------------------------------------------

  /**
   * The unsigned test `Head - (Sum ^ Head) <= Head` of both templates: the
   * subtraction wraps when `Sum ^ Head` exceeds `Head`, so the test means
   * just `Sum ^ Head <= Head`.
   */
  predicate Selects(sum: SizeT, head: SizeT)
    ensures Selects(sum, head) <==> Xor(sum, head) <= head
  {
    Sub(head, BitXor(sum, head)) <= head
  }

  /**
   * `HeapIndex<Index, Sum, Heaps...>`: `Index` when the first heap is
   * selected or is the only one, else the index found in the rest.
   */
  function HeapIndex(index: nat, sum: SizeT, heaps: seq<SizeT>): (r: nat)
    requires |heaps| >= 1
    ensures index <= r < index + |heaps|
    ensures forall m :: 0 <= m < r - index ==> heaps[m] < Xor(sum, heaps[m])
    ensures r - index < |heaps| - 1 ==> Xor(sum, heaps[r - index]) <= heaps[r - index]
    decreases |heaps|
  {
    if |heaps| == 1 then
      index
    else
      var rest := HeapIndex(index + 1, sum, heaps[1..]);
      PickByFlag(Selects(sum, heaps[0]), index, rest);
      assert forall m :: 1 <= m < |heaps| ==> heaps[1..][m - 1] == heaps[m];
      B2I(Selects(sum, heaps[0])) * index + B2I(!Selects(sum, heaps[0])) * rest
  }

  /**
   * `RocksCount<Sum, Heaps...>` before the final conversion to `ssize_t`:
   * `Head - (Sum ^ Head)` for the first selected heap, or for the last heap.
   */
  function RocksRaw(sum: SizeT, heaps: seq<SizeT>): (r: SizeT)
    requires |heaps| >= 1
    ensures exists j :: 0 <= j < |heaps| && r == Sub(heaps[j], BitXor(sum, heaps[j]))
    decreases |heaps|
  {
    var head := heaps[0];
    if |heaps| == 1 || Selects(sum, head) then
      Sub(head, BitXor(sum, head))
    else
      RocksRaw(sum, heaps[1..])
  }

  /**
   * `RocksCount<Sum, Heaps...>::value`: `h - (Sum ^ h)` for the heap `h` at
   * the index `HeapIndex` reports, read as `ssize_t`.
   */
  function RocksCount(sum: SizeT, heaps: seq<SizeT>): (r: int)
    requires |heaps| >= 1
    ensures var h := heaps[HeapIndex(0, sum, heaps)];
            r == ToSsize(Sub(h, BitXor(sum, h)))
  {
    RocksFollowHeapIndex(sum, heaps);
    ToSsize(RocksRaw(sum, heaps))
  }

  /** The three constants of `Game<Heaps...>`. */
  datatype GameResult = GameResult(firstPlayerWins: bool, firstMoveHeapIndex: int, firstMoveRocksCount: int)

  /**
   * `Game<Heaps...>` with its nim-sum given: the first player wins exactly
   * when the sum is non-zero; the move constants are -1 when it is zero and
   * the heap index and rocks count otherwise. The template needs at least
   * one heap to instantiate `HeapIndex`.
   */
  function Game(sum: SizeT, heaps: seq<SizeT>): (g: GameResult)
    requires |heaps| >= 1
    ensures g.firstPlayerWins <==> sum != 0
    ensures sum == 0 ==> g.firstMoveHeapIndex == -1 && g.firstMoveRocksCount == -1
    ensures sum != 0 ==> 0 <= g.firstMoveHeapIndex < |heaps|
  {
    GameResult(
      sum != 0,
      B2I(sum != 0) * HeapIndex(0, sum, heaps) - B2I(sum == 0),
      B2I(sum != 0) * RocksCount(sum, heaps) - B2I(sum == 0))
  }

  // ---------------------------------------------------------------------
  // RocksCount follows HeapIndex
  // ---------------------------------------------------------------------

  lemma {:induction false} HeapIndexShift(index: nat, sum: SizeT, heaps: seq<SizeT>)
    requires |heaps| >= 1
    ensures HeapIndex(index, sum, heaps) == index + HeapIndex(0, sum, heaps)
    decreases |heaps|
  {
    if |heaps| > 1 {
      HeapIndexShift(index + 1, sum, heaps[1..]);
      HeapIndexShift(1, sum, heaps[1..]);
    }
  }

  /**
   * `RocksCount` chooses its heap by the same test as `HeapIndex`: its value
   * is `h - (Sum ^ h)` for the heap `h` at the index `HeapIndex` reports.
   */
  lemma {:induction false} RocksFollowHeapIndex(sum: SizeT, heaps: seq<SizeT>)
    requires |heaps| >= 1
    ensures var h := heaps[HeapIndex(0, sum, heaps)];
            RocksRaw(sum, heaps) == Sub(h, BitXor(sum, h))
    decreases |heaps|
  {
    if |heaps| > 1 && !Selects(sum, heaps[0]) {
      RocksFollowHeapIndex(sum, heaps[1..]);
      HeapIndexShift(1, sum, heaps[1..]);
    }
  }

  /** The `Game` constants name the `HeapIndex` heap and its `RocksCount`. */
  lemma GameMove(sum: SizeT, heaps: seq<SizeT>)
    requires |heaps| >= 1 && sum != 0
    ensures var g := Game(sum, heaps);
            var h := heaps[g.firstMoveHeapIndex];
            && g.firstMoveHeapIndex == HeapIndex(0, sum, heaps)
            && g.firstMoveRocksCount == ToSsize(Sub(h, BitXor(sum, h)))
  {
    RocksFollowHeapIndex(sum, heaps);
  }

  // ---------------------------------------------------------------------
  // The move is a winning one when `sum` is the nim-sum of the heaps
  // ---------------------------------------------------------------------

  /** The nim-sum of the heaps (the role `XorSum` plays in the source). */
  function NimSum(heaps: seq<SizeT>): SizeT {
    if |heaps| == 0 then 0 else BitXor(heaps[0], NimSum(heaps[1..]))
  }

  /** Replacing one heap changes the nim-sum by the old and the new heap. */
  lemma {:induction false} NimSumUpdate(heaps: seq<SizeT>, i: nat, x: SizeT)
    requires i < |heaps|
    ensures NimSum(heaps[i := x]) == Xor(Xor(NimSum(heaps), heaps[i]), x)
    decreases |heaps|
  {
    var h0, rest := heaps[0], NimSum(heaps[1..]);
    if i == 0 {
      assert heaps[0 := x][1..] == heaps[1..];
      XorComm(h0, rest);
      XorAssoc(rest, h0, h0);
      XorSelf(h0);
      XorZero(rest);
      XorComm(rest, x);
    } else {
      NimSumUpdate(heaps[1..], i - 1, x);
      assert heaps[i := x][1..] == heaps[1..][i - 1 := x];
      XorAssoc(h0, rest, heaps[i]);
      XorAssoc(h0, Xor(rest, heaps[i]), x);
    }
  }

  /**
   * `h` has the bit in the position of the highest set bit of `s`.
   */
  predicate TopAligned(s: nat, h: nat)
    requires s >= 1
    decreases s
  {
    if s == 1 then h % 2 == 1 else TopAligned(s / 2, h / 2)
  }

  lemma {:induction false} TopAlignedSelf(s: nat)
    requires s >= 1
    ensures TopAligned(s, s)
    decreases s
  {
    if s > 1 {
      TopAlignedSelf(s / 2);
    }
  }

  /** The bit of `a ^ b` is set exactly when one of theirs is. */
  lemma {:induction false} TopAlignedXor(s: nat, a: nat, b: nat)
    requires s >= 1
    ensures TopAligned(s, Xor(a, b)) <==> TopAligned(s, a) != TopAligned(s, b)
    decreases s
  {
    XorBits(a, b);
    if s == 1 {
      OddSum(a, b);
    } else {
      TopAlignedXor(s / 2, a / 2, b / 2);
      assert TopAligned(s, Xor(a, b)) == TopAligned(s / 2, Xor(a / 2, b / 2));
    }
  }

  /** A sum is odd exactly when one of its two terms is. */
  lemma OddSum(a: nat, b: nat)
    ensures (a + b) % 2 == 1 <==> (a % 2 == 1) != (b % 2 == 1)
  {
  }

  /** A heap holding the highest bit of `s` shrinks when xored with `s`. */
  lemma {:induction false} TopAlignedShrinks(s: nat, h: nat)
    requires s >= 1 && TopAligned(s, h)
    ensures Xor(s, h) < h
    decreases s
  {
    if s == 1 {
      XorZero(h / 2);
      assert Xor(s, h) == 2 * Xor(0, h / 2) + (1 + h) % 2;
    } else {
      TopAlignedShrinks(s / 2, h / 2);
      assert Xor(s, h) == 2 * Xor(s / 2, h / 2) + (s + h) % 2;
    }
  }

  /** Some heap holds every bit its nim-sum holds. */
  lemma {:induction false} NimSumTopAligned(s: nat, heaps: seq<SizeT>)
    requires s >= 1
    ensures TopAligned(s, NimSum(heaps)) ==> exists j :: 0 <= j < |heaps| && TopAligned(s, heaps[j])
    decreases |heaps|
  {
    if |heaps| == 0 {
      ZeroNotTopAligned(s);
    } else {
      TopAlignedXor(s, heaps[0], NimSum(heaps[1..]));
      if TopAligned(s, NimSum(heaps)) && !TopAligned(s, heaps[0]) {
        NimSumTopAligned(s, heaps[1..]);
        var j :| 0 <= j < |heaps| - 1 && TopAligned(s, heaps[1..][j]);
        assert TopAligned(s, heaps[j + 1]);
      }
    }
  }

  lemma {:induction false} ZeroNotTopAligned(s: nat)
    requires s >= 1
    ensures !TopAligned(s, 0)
    decreases s
  {
    if s > 1 {
      ZeroNotTopAligned(s / 2);
    }
  }

  /**
   * With `sum` the nim-sum of the heaps and non-zero, the `Game` move is a
   * legal winning move: the chosen heap passes the test strictly, between 1
   * and all of its rocks are taken, the heaps left have nim-sum zero, and
   * the reported count is that number of rocks read as `ssize_t`.
   */
  lemma GameMoveWins(heaps: seq<SizeT>)
    requires |heaps| >= 1 && NimSum(heaps) != 0
    ensures var sum := NimSum(heaps);
            var g := Game(sum, heaps);
            var i := g.firstMoveHeapIndex;
            var h := heaps[i];
            var rocks := RocksRaw(sum, heaps);
            && Xor(sum, h) < h
            && 0 < rocks <= h
            && NimSum(heaps[i := h - rocks]) == 0
            && g.firstMoveRocksCount == ToSsize(rocks)
  {
    var sum := NimSum(heaps);
    var i := HeapIndex(0, sum, heaps);
    var h := heaps[i];
    ChosenHeapShrinks(heaps);
    GameMove(sum, heaps);
    RocksFollowHeapIndex(sum, heaps);
    var x := Xor(sum, h);
    NimSumUpdate(heaps, i, x);
    XorSelf(x);
  }

  /** With a non-zero nim-sum, the heap `HeapIndex` picks holds its highest bit and so shrinks. */
  lemma ChosenHeapShrinks(heaps: seq<SizeT>)
    requires |heaps| >= 1 && NimSum(heaps) != 0
    ensures var sum := NimSum(heaps);
            var h := heaps[HeapIndex(0, sum, heaps)];
            Xor(sum, h) < h
  {
    var sum := NimSum(heaps);
    TopAlignedSelf(sum);
    NimSumTopAligned(sum, heaps);
    var j :| 0 <= j < |heaps| && TopAligned(sum, heaps[j]);
    TopAlignedShrinks(sum, heaps[j]);
    var i := HeapIndex(0, sum, heaps);
    var h := heaps[i];
    if i < |heaps| - 1 {
      if Xor(sum, h) == h {
        XorFixed(sum, h);
      }
    } else {
      assert i == j;
    }
  }
}

=== FILE: scenarios.dfy ===
/**
 * The allocator scenarios of the test file, replayed on the model with
 * symbolic buffer addresses: memory reuse, the oversized request, the
 * chunk chain and reference counting.
 */
module Scenarios {
  import opened Wrappers
  import opened Chunks
  import opened ChunkChain
  import opened Handles

  /** Eight `int`s: 32 bytes. */
  const INTS_8: nat := 32

  /** A pool-sized chunk at `b` with the given fragments. */
  function Pool(b: nat, frags: seq<Fragment>): Chunk {
    Chunk(b, CHUNK_SIZE, frags)
  }

  /** `engage` on a chunk with one fragment at its start appends right after it when there is room. */
  lemma AppendAfterHead(c: Chunk, n: nat)
    requires c.size == CHUNK_SIZE && |c.frags| == 1 && c.frags[0].ptr == c.data
    requires c.frags[0].len + n <= c.size
    ensures Engage(c, n) == Success(Placed(c.(frags := c.frags + [Fragment(c.frags[0].End(), n)]), c.frags[0].End()))
  {
    assert c.frags[..1] == c.frags;
  }

  /**
   * Memory reuse: with a leading block and two blocks of eight `int`s in
   * one chunk, freeing the middle block and allocating the same size again
   * returns the freed address.
   */
  lemma MemoryReuse(b: nat)
    requires NULL < b
    ensures var n := RequestBytes(4, 8);
            var r1 := Allocate([], n, b);
            var r2 := Allocate(r1.0, n, b);
            var r3 := Allocate(r2.0, n, b);
            var s4 := Deallocate(r3.0, r2.1.value, n);
            var r5 := Allocate(s4, n, b);
            && r1.1 == Success(b) && r2.1 == Success(b + INTS_8) && r3.1 == Success(b + 2 * INTS_8)
            && r5.1 == r2.1 && r5.0 == r3.0
  {
    var n := RequestBytes(4, 8);
    assert n == INTS_8;
    var c1 := Pool(b, [Fragment(b, n)]);
    var c2 := Pool(b, [Fragment(b, n), Fragment(b + n, n)]);
    var c3 := Pool(b, [Fragment(b, n), Fragment(b + n, n), Fragment(b + 2 * n, n)]);
    var c4 := Pool(b, [Fragment(b, n), Fragment(b + 2 * n, n)]);
    FirstAllocation(n, b);
    var r1 := Allocate([], n, b);
    assert r1 == ([c1], Success(b));
    AppendAfterHead(c1, n);
    assert c1.frags + [Fragment(b + n, n)] == c2.frags;
    AllocateInOnly(c1, n, b);
    var r2 := Allocate(r1.0, n, b);
    assert r2 == ([c2], Success(b + n));
    ReuseThird(b, n);
    AllocateInOnly(c2, n, b);
    var r3 := Allocate(r2.0, n, b);
    assert r3 == ([c3], Success(b + 2 * n));
    ReuseFree(b, n);
    var s4 := Deallocate(r3.0, r2.1.value, n);
    assert s4 == [c4];
    ReuseAgain(b, n);
    AllocateInOnly(c4, n, b);
  }

  /** The third block goes after the second. */
  lemma ReuseThird(b: nat, n: nat)
    requires n == INTS_8
    ensures Engage(Pool(b, [Fragment(b, n), Fragment(b + n, n)]), n)
         == Success(Placed(Pool(b, [Fragment(b, n), Fragment(b + n, n), Fragment(b + 2 * n, n)]), b + 2 * n))
  {
    var c2 := Pool(b, [Fragment(b, n), Fragment(b + n, n)]);
    var c3 := Pool(b, [Fragment(b, n), Fragment(b + n, n), Fragment(b + 2 * n, n)]);
    assert Scan(c2, n, 1) == Placed(c3, b + 2 * n);
    assert c2.frags[..2] + [Fragment(b + 2 * n, n)] == [Fragment(b, n), Fragment(b + n, n), Fragment(b + 2 * n, n)];
  }

  /** Freeing the middle block removes just its fragment. */
  lemma ReuseFree(b: nat, n: nat)
    requires NULL < b && n == INTS_8
    ensures Deallocate([Pool(b, [Fragment(b, n), Fragment(b + n, n), Fragment(b + 2 * n, n)])], b + n, n)
         == [Pool(b, [Fragment(b, n), Fragment(b + 2 * n, n)])]
  {
    var c3 := Pool(b, [Fragment(b, n), Fragment(b + n, n), Fragment(b + 2 * n, n)]);
    assert Remove(c3.frags, 1) == [Fragment(b, n), Fragment(b + 2 * n, n)];
    assert Release(c3, b + n, n) == Pool(b, [Fragment(b, n), Fragment(b + 2 * n, n)]);
  }

  /** The freed gap is the first that fits, so the block lands there again. */
  lemma ReuseAgain(b: nat, n: nat)
    requires n == INTS_8
    ensures Engage(Pool(b, [Fragment(b, n), Fragment(b + 2 * n, n)]), n)
         == Success(Placed(Pool(b, [Fragment(b, n), Fragment(b + n, n), Fragment(b + 2 * n, n)]), b + n))
  {
    var c4 := Pool(b, [Fragment(b, n), Fragment(b + 2 * n, n)]);
    assert Insert(c4.frags, 1, Fragment(b + n, n)) == [Fragment(b, n), Fragment(b + n, n), Fragment(b + 2 * n, n)];
  }

  /** The first allocation of an allocator creates its chunk and takes the buffer start. */
  lemma FirstAllocation(n: nat, b: nat)
    requires 0 < n <= CHUNK_SIZE
    ensures Allocate([], n, b) == ([Chunk(b, CHUNK_SIZE, [Fragment(b, n)])], Success(b))
  {
    AllocateSearchOrder([], n, b);
    assert [Chunk(b, CHUNK_SIZE, [Fragment(b, n)])] + [] == [Chunk(b, CHUNK_SIZE, [Fragment(b, n)])];
  }

  /** On a one-chunk chain, a placement by `engage` is the allocation. */
  lemma AllocateInOnly(c: Chunk, n: nat, b: nat)
    requires c.size == CHUNK_SIZE && n <= CHUNK_SIZE && Engage(c, n).Success? && Engage(c, n).value.Placed?
    ensures Allocate([c], n, b) == ([Engage(c, n).value.chunk], Success(Engage(c, n).value.addr))
  {
    AllocateSearchOrder([c], n, b);
    assert [c][0 := Engage(c, n).value.chunk] == [Engage(c, n).value.chunk];
  }

  /**
   * Memory leakage: after a first block of eight `int`s, any number of
   * allocate-then-free rounds of eight `int`s leaves the chain as it was,
   * whatever base a new chunk would get.
   */
  lemma MemoryLeakage(b: nat, newBase: nat, reps: nat)
    requires NULL < b && NULL < newBase && Apart(b, newBase)
    ensures var first := Allocate([], RequestBytes(4, 8), b).0;
            && first == [Pool(b, [Fragment(b, INTS_8)])]
            && Churn(first, RequestBytes(4, 8), newBase, reps) == first
  {
    var n := RequestBytes(4, 8);
    assert n == INTS_8;
    FirstAllocation(n, b);
    var c := Pool(b, [Fragment(b, n)]);
    assert InBuffer(c, c.frags[0]);
    assert LiveChunk(c);
    assert BuffersDisjoint(NewChunk(newBase, CHUNK_SIZE), c);
    ChurnKeepsChain([c], n, newBase, reps);
  }

  // ---------------------------------------------------------------------
  // Bad allocation
  // ---------------------------------------------------------------------

  /**
   * `allocate(CHUNK_SIZE + 1)` of bytes throws `out_of_range`, after the
   * allocator has created its first chunk.
   */
  lemma BadAllocation(b: nat)
    ensures Allocate([], RequestBytes(1, CHUNK_SIZE + 1), b) == ([NewChunk(b, CHUNK_SIZE)], Failure(OutOfRange))
  {
    AllocateOversized([], RequestBytes(1, CHUNK_SIZE + 1), b);
  }

  // ---------------------------------------------------------------------
  // Chunks chain
  // ---------------------------------------------------------------------

  const HALF: nat := CHUNK_SIZE / 2

  /** Two chunk buffers at `x` and `y` do not overlap. */
  predicate Apart(x: nat, y: nat) {
    x + CHUNK_SIZE <= y || y + CHUNK_SIZE <= x
  }

  /** A chunk whose last fragment ends too close to the buffer end has no room. */
  lemma NoRoomAtEnd(c: Chunk, n: nat)
    requires c.size == CHUNK_SIZE && |c.frags| == 1 && c.frags[0].ptr == c.data
    requires c.frags[0].len <= c.size && n <= c.size < c.frags[0].len + n
    ensures Engage(c, n) == Success(NoRoom)
  {
  }

  /** `allocate(8)`, then a whole chunk: the first chunk is too full, so a second is pushed. */
  lemma ChainSteps12(b1: nat, b2: nat)
    requires NULL < b1
    ensures Allocate([], 8, b1) == ([Pool(b1, [Fragment(b1, 8)])], Success(b1))
    ensures Allocate([Pool(b1, [Fragment(b1, 8)])], CHUNK_SIZE, b2)
         == ([Pool(b2, [Fragment(b2, CHUNK_SIZE)]), Pool(b1, [Fragment(b1, 8)])], Success(b2))
  {
    FirstAllocation(8, b1);
    NoRoomAtEnd(Pool(b1, [Fragment(b1, 8)]), CHUNK_SIZE);
    AllocateSearchOrder([Pool(b1, [Fragment(b1, 8)])], CHUNK_SIZE, b2);
    assert [Pool(b2, [Fragment(b2, CHUNK_SIZE)])] + [Pool(b1, [Fragment(b1, 8)])]
        == [Pool(b2, [Fragment(b2, CHUNK_SIZE)]), Pool(b1, [Fragment(b1, 8)])];
  }

  /** Half a chunk: the full second chunk has no room, the first takes it after its head. */
  lemma ChainStep3(b1: nat, b2: nat, b: nat)
    ensures var chain := [Pool(b2, [Fragment(b2, CHUNK_SIZE)]), Pool(b1, [Fragment(b1, 8)])];
            Allocate(chain, HALF, b)
              == ([Pool(b2, [Fragment(b2, CHUNK_SIZE)]), Pool(b1, [Fragment(b1, 8), Fragment(b1 + 8, HALF)])], Success(b1 + 8))
  {
    var chain := [Pool(b2, [Fragment(b2, CHUNK_SIZE)]), Pool(b1, [Fragment(b1, 8)])];
    NoRoomAtEnd(chain[0], HALF);
    AppendAfterHead(chain[1], HALF);
    assert chain[1].frags + [Fragment(b1 + 8, HALF)] == [Fragment(b1, 8), Fragment(b1 + 8, HALF)];
    AllocateSearchOrder(chain, HALF, b);
    assert forall j :: 0 <= j < 1 ==> Engage(chain[j], HALF) == Success(NoRoom);
    assert chain[1 := Pool(b1, [Fragment(b1, 8), Fragment(b1 + 8, HALF)])]
        == [Pool(b2, [Fragment(b2, CHUNK_SIZE)]), Pool(b1, [Fragment(b1, 8), Fragment(b1 + 8, HALF)])];
  }

  /** Another half chunk fits nowhere, so a third chunk is pushed. */
  lemma ChainStep4(b1: nat, b2: nat, b3: nat)
    ensures var c2 := Pool(b2, [Fragment(b2, CHUNK_SIZE)]);
            var c1 := Pool(b1, [Fragment(b1, 8), Fragment(b1 + 8, HALF)]);
            Allocate([c2, c1], HALF, b3) == ([Pool(b3, [Fragment(b3, HALF)]), c2, c1], Success(b3))
  {
    var chain := [Pool(b2, [Fragment(b2, CHUNK_SIZE)]), Pool(b1, [Fragment(b1, 8), Fragment(b1 + 8, HALF)])];
    NoRoomAtEnd(chain[0], HALF);
    assert Scan(chain[1], HALF, 1) == NoRoom;
    assert Engage(chain[1], HALF) == Success(NoRoom);
    AllocateSearchOrder(chain, HALF, b3);
    assert [Pool(b3, [Fragment(b3, HALF)])] + chain == [Pool(b3, [Fragment(b3, HALF)]), chain[0], chain[1]];
  }

  /** 16 bytes go into the newest chunk, after its half. */
  lemma ChainStep5(b1: nat, b2: nat, b3: nat, b: nat)
    ensures var c2 := Pool(b2, [Fragment(b2, CHUNK_SIZE)]);
            var c1 := Pool(b1, [Fragment(b1, 8), Fragment(b1 + 8, HALF)]);
            Allocate([Pool(b3, [Fragment(b3, HALF)]), c2, c1], 16, b)
              == ([Pool(b3, [Fragment(b3, HALF), Fragment(b3 + HALF, 16)]), c2, c1], Success(b3 + HALF))
  {
    var rest := [Pool(b2, [Fragment(b2, CHUNK_SIZE)]), Pool(b1, [Fragment(b1, 8), Fragment(b1 + 8, HALF)])];
    var chain := [Pool(b3, [Fragment(b3, HALF)])] + rest;
    AppendAfterHead(chain[0], 16);
    assert chain[0].frags + [Fragment(b3 + HALF, 16)] == [Fragment(b3, HALF), Fragment(b3 + HALF, 16)];
    AllocateSearchOrder(chain, 16, b);
    assert chain == [Pool(b3, [Fragment(b3, HALF)]), rest[0], rest[1]];
    assert chain[0 := Pool(b3, [Fragment(b3, HALF), Fragment(b3 + HALF, 16)])]
        == [Pool(b3, [Fragment(b3, HALF), Fragment(b3 + HALF, 16)]), rest[0], rest[1]];
  }

  /** Half a chunk less 8 bytes fits exactly at the end of the oldest chunk. */
  lemma ChainStep6(b1: nat, b2: nat, b3: nat, b: nat)
    ensures var c3 := Pool(b3, [Fragment(b3, HALF), Fragment(b3 + HALF, 16)]);
            var c2 := Pool(b2, [Fragment(b2, CHUNK_SIZE)]);
            var c1 := Pool(b1, [Fragment(b1, 8), Fragment(b1 + 8, HALF)]);
            var c1' := Pool(b1, [Fragment(b1, 8), Fragment(b1 + 8, HALF), Fragment(b1 + 8 + HALF, HALF - 8)]);
            Allocate([c3, c2, c1], HALF - 8, b) == ([c3, c2, c1'], Success(b1 + 8 + HALF))
  {
    var c3 := Pool(b3, [Fragment(b3, HALF), Fragment(b3 + HALF, 16)]);
    var c2 := Pool(b2, [Fragment(b2, CHUNK_SIZE)]);
    var c1 := Pool(b1, [Fragment(b1, 8), Fragment(b1 + 8, HALF)]);
    var c1' := Pool(b1, [Fragment(b1, 8), Fragment(b1 + 8, HALF), Fragment(b1 + 8 + HALF, HALF - 8)]);
    var n := HALF - 8;
    var chain := [c3, c2, c1];
    assert Allocate(chain, n, b) == (chain[2 := c1'], Success(b1 + 8 + HALF)) by {
      Step6Newest(b3);
      NoRoomAtEnd(c2, n);
      Step6Oldest(b1);
      assert chain[2] == c1 && Engage(chain[2], n) == Success(Placed(c1', b1 + 8 + HALF));
      assert forall j :: 0 <= j < 2 ==> Engage(chain[j], n) == Success(NoRoom);
      AllocateSearchOrder(chain, n, b);
    }
    assert chain[2 := c1'] == [c3, c2, c1'];
  }

  /** The newest chunk has 16 bytes too few left for half a chunk less 8. */
  lemma Step6Newest(b3: nat)
    ensures Engage(Pool(b3, [Fragment(b3, HALF), Fragment(b3 + HALF, 16)]), HALF - 8) == Success(NoRoom)
  {
    var c3 := Pool(b3, [Fragment(b3, HALF), Fragment(b3 + HALF, 16)]);
    assert Scan(c3, HALF - 8, 1) == NoRoom;
  }

  /** The oldest chunk has exactly half a chunk less 8 left at its end. */
  lemma Step6Oldest(b1: nat)
    ensures var c1 := Pool(b1, [Fragment(b1, 8), Fragment(b1 + 8, HALF)]);
            var c1' := Pool(b1, [Fragment(b1, 8), Fragment(b1 + 8, HALF), Fragment(b1 + 8 + HALF, HALF - 8)]);
            Engage(c1, HALF - 8) == Success(Placed(c1', b1 + 8 + HALF))
  {
    var c1 := Pool(b1, [Fragment(b1, 8), Fragment(b1 + 8, HALF)]);
    var c1' := Pool(b1, [Fragment(b1, 8), Fragment(b1 + 8, HALF), Fragment(b1 + 8 + HALF, HALF - 8)]);
    assert c1.frags[..2] + [Fragment(b1 + 8 + HALF, HALF - 8)] == c1'.frags;
    assert Scan(c1, HALF - 8, 1) == Placed(c1', b1 + 8 + HALF);
  }

  /** Freeing the whole second chunk, then the head of the first, unlinks both. */
  lemma ChainSteps78(b1: nat, b2: nat, b3: nat)
    requires NULL < b1 && NULL < b2 && Apart(b1, b2) && Apart(b1, b3) && Apart(b2, b3)
    ensures var c3 := Pool(b3, [Fragment(b3, HALF), Fragment(b3 + HALF, 16)]);
            var c2 := Pool(b2, [Fragment(b2, CHUNK_SIZE)]);
            var c1' := Pool(b1, [Fragment(b1, 8), Fragment(b1 + 8, HALF), Fragment(b1 + 8 + HALF, HALF - 8)]);
            && Deallocate([c3, c2, c1'], b2, CHUNK_SIZE) == [c3, c1']
            && Deallocate([c3, c1'], b1, 8) == [c3]
  {
    var c3 := Pool(b3, [Fragment(b3, HALF), Fragment(b3 + HALF, 16)]);
    var c2 := Pool(b2, [Fragment(b2, CHUNK_SIZE)]);
    var c1' := Pool(b1, [Fragment(b1, 8), Fragment(b1 + 8, HALF), Fragment(b1 + 8 + HALF, HALF - 8)]);
    DeallocateOwner([c3, c2, c1'], b2, CHUNK_SIZE, 1);
    assert [c3, c2, c1'][..1] + [c3, c2, c1'][2..] == [c3, c1'];
    DeallocateOwner([c3, c1'], b1, 8, 1);
    assert [c3, c1'][..1] + [c3, c1'][2..] == [c3];
  }

  /**
   * Freeing a block of the unlinked first chunk is ignored; freeing the 16
   * bytes and then the half of the third chunk empties the chain.
   */
  lemma ChainSteps9to12(b1: nat, b3: nat)
    requires NULL < b3 && Apart(b1, b3)
    ensures var c3 := Pool(b3, [Fragment(b3, HALF), Fragment(b3 + HALF, 16)]);
            var c3' := Pool(b3, [Fragment(b3, HALF)]);
            && Deallocate([c3], b1 + 8, HALF) == [c3]
            && Deallocate([c3], b3 + HALF, 16) == [c3']
            && Deallocate([c3'], b3, HALF) == []
            && Deallocate([], b1 + 8 + HALF, HALF - 8) == []
  {
    var c3 := Pool(b3, [Fragment(b3, HALF), Fragment(b3 + HALF, 16)]);
    var c3' := Pool(b3, [Fragment(b3, HALF)]);
    assert Remove(c3.frags, 1) == c3'.frags;
    assert Release(c3, b3 + HALF, 16) == c3';
    DeallocateOwner([c3], b3 + HALF, 16, 0);
    DeallocateOwner([c3'], b3, HALF, 0);
  }

  /** The chain after the six allocations of the chunks chain test, newest first. */
  function ThreeChunks(b1: nat, b2: nat, b3: nat): seq<Chunk> {
    [Pool(b3, [Fragment(b3, HALF), Fragment(b3 + HALF, 16)]),
     Pool(b2, [Fragment(b2, CHUNK_SIZE)]),
     Pool(b1, [Fragment(b1, 8), Fragment(b1 + 8, HALF), Fragment(b1 + 8 + HALF, HALF - 8)])]
  }

  /**
   * The chunks chain test, allocations: 8 bytes, a whole chunk, two halves,
   * 16 bytes and half less 8 are spread over three chunks, in the chunks
   * and at the addresses the test's comments give.
   */
  lemma ChunkChainAllocations(b1: nat, b2: nat, b3: nat)
    requires NULL < b1
    ensures var r0 := Allocate([], 8, b1);
            var r1 := Allocate(r0.0, CHUNK_SIZE, b2);
            var r2 := Allocate(r1.0, HALF, b3);
            var r3 := Allocate(r2.0, HALF, b3);
            var r4 := Allocate(r3.0, 16, b3);
            var r5 := Allocate(r4.0, HALF - 8, b3);
            && r0.1 == Success(b1) && r1.1 == Success(b2) && r2.1 == Success(b1 + 8)
            && r3.1 == Success(b3) && r4.1 == Success(b3 + HALF) && r5.1 == Success(b1 + 8 + HALF)
            && r5.0 == ThreeChunks(b1, b2, b3) && |r5.0| == 3
  {
    var c1a := Pool(b1, [Fragment(b1, 8)]);
    var c2 := Pool(b2, [Fragment(b2, CHUNK_SIZE)]);
    var c1b := Pool(b1, [Fragment(b1, 8), Fragment(b1 + 8, HALF)]);
    var c3a := Pool(b3, [Fragment(b3, HALF)]);
    var c3b := Pool(b3, [Fragment(b3, HALF), Fragment(b3 + HALF, 16)]);
    var r0 := Allocate([], 8, b1);
    assert r0 == ([c1a], Success(b1)) by { ChainSteps12(b1, b2); }
    var r1 := Allocate(r0.0, CHUNK_SIZE, b2);
    assert r1 == ([c2, c1a], Success(b2)) by { ChainSteps12(b1, b2); }
    var r2 := Allocate(r1.0, HALF, b3);
    assert r2 == ([c2, c1b], Success(b1 + 8)) by { ChainStep3(b1, b2, b3); }
    var r3 := Allocate(r2.0, HALF, b3);
    assert r3 == ([c3a, c2, c1b], Success(b3)) by { ChainStep4(b1, b2, b3); }
    var r4 := Allocate(r3.0, 16, b3);
    assert r4 == ([c3b, c2, c1b], Success(b3 + HALF)) by { ChainStep5(b1, b2, b3, b3); }
    ChainStep6(b1, b2, b3, b3);
  }

  /**
   * The chunks chain test, frees: the chunk count drops from 3 to 2 when
   * the whole second chunk is freed, to 1 after the 8, half and 16 byte
   * blocks, and to 0 after the rest. The drop to one chunk relies on
   * freeing the head fragment of the oldest chunk, which clears its whole
   * list while two blocks are still in it; the later frees of those blocks
   * find no chunk and are ignored.
   */
  lemma ChunkChainFrees(b1: nat, b2: nat, b3: nat)
    requires NULL < b1 && NULL < b2 && NULL < b3 && Apart(b1, b2) && Apart(b1, b3) && Apart(b2, b3)
    ensures var d1 := Deallocate(ThreeChunks(b1, b2, b3), b2, CHUNK_SIZE);
            var d0 := Deallocate(d1, b1, 8);
            var d2 := Deallocate(d0, b1 + 8, HALF);
            var d4 := Deallocate(d2, b3 + HALF, 16);
            var d3 := Deallocate(d4, b3, HALF);
            var d5 := Deallocate(d3, b1 + 8 + HALF, HALF - 8);
            |d1| == 2 && |d4| == 1 && |d5| == 0
  {
    ChainSteps78(b1, b2, b3);
    ChainSteps9to12(b1, b3);
  }

  // ---------------------------------------------------------------------
  // Reference counting
  // ---------------------------------------------------------------------

  /** Just over half a chunk: no chunk can hold two such blocks. */
  const OVER_HALF: nat := HALF + 1

  /** The chain after `k` blocks of `OVER_HALF` bytes, one per chunk, the `i`-th at `bases[i]`. */
  function OverHalfChain(bases: seq<nat>, k: nat): (r: seq<Chunk>)
    requires k <= |bases|
    ensures |r| == k
    ensures forall i :: 0 <= i < k ==> r[i] == Pool(bases[k - 1 - i], [Fragment(bases[k - 1 - i], OVER_HALF)])
  {
    if k == 0 then [] else [Pool(bases[k - 1], [Fragment(bases[k - 1], OVER_HALF)])] + OverHalfChain(bases, k - 1)
  }

  /** Each further block of `OVER_HALF` bytes gets a chunk of its own. */
  lemma OverHalfPush(bases: seq<nat>, k: nat)
    requires k < |bases|
    ensures Allocate(OverHalfChain(bases, k), OVER_HALF, bases[k]) == (OverHalfChain(bases, k + 1), Success(bases[k]))
  {
    var chain := OverHalfChain(bases, k);
    forall j | 0 <= j < |chain|
      ensures Engage(chain[j], OVER_HALF) == Success(NoRoom)
    {
      NoRoomAtEnd(chain[j], OVER_HALF);
    }
    AllocateSearchOrder(chain, OVER_HALF, bases[k]);
  }

  /** Freeing the newest block unlinks the newest chunk. */
  lemma OverHalfPop(bases: seq<nat>, k: nat)
    requires 0 < k <= |bases| && NULL < bases[k - 1]
    ensures Deallocate(OverHalfChain(bases, k), bases[k - 1], OVER_HALF) == OverHalfChain(bases, k - 1)
  {
    var chain := OverHalfChain(bases, k);
    DeallocateOwner(chain, bases[k - 1], OVER_HALF, 0);
    assert chain[..0] + chain[1..] == chain[1..];
  }

  /** The shared record holds the first `k` blocks and `counter` handles. */
  function Record(at: nat, bases: seq<nat>, k: nat, counter: nat): Registry
    requires k <= |bases|
  {
    map[at := Shares(OverHalfChain(bases, k), counter)]
  }

  lemma AllocateViaStep(at: nat, bases: seq<nat>, k: nat, counter: nat)
    requires k < |bases|
    ensures AllocateVia(Record(at, bases, k, counter), Handle(at), 1, OVER_HALF, bases[k])
         == (Record(at, bases, k + 1, counter), Success(bases[k]))
  {
    OverHalfPush(bases, k);
    assert RequestBytes(1, OVER_HALF) == OVER_HALF;
    var g := Record(at, bases, k, counter);
    assert g[at := g[at].(chain := OverHalfChain(bases, k + 1))] == Record(at, bases, k + 1, counter);
  }

  lemma DeallocateViaStep(at: nat, bases: seq<nat>, k: nat, counter: nat)
    requires 0 < k <= |bases| && NULL < bases[k - 1]
    ensures DeallocateVia(Record(at, bases, k, counter), Handle(at), bases[k - 1], 1, OVER_HALF)
         == Record(at, bases, k - 1, counter)
  {
    OverHalfPop(bases, k);
    assert RequestBytes(1, OVER_HALF) == OVER_HALF;
    var g := Record(at, bases, k, counter);
    assert g[at := g[at].(chain := OverHalfChain(bases, k - 1))] == Record(at, bases, k - 1, counter);
  }

  lemma CopyStep(at: nat, bases: seq<nat>, k: nat, counter: nat)
    requires k <= |bases|
    ensures Copy(Record(at, bases, k, counter), Handle(at)) == (Record(at, bases, k, counter + 1), Handle(at))
  {
    var g := Record(at, bases, k, counter);
    assert g[at := g[at].(counter := counter + 1)] == Record(at, bases, k, counter + 1);
  }

  lemma DestroyStep(at: nat, bases: seq<nat>, k: nat, counter: nat)
    requires k <= |bases| && counter > 1
    ensures Destroy(Record(at, bases, k, counter), Handle(at)) == Record(at, bases, k, counter - 1)
  {
    var g := Record(at, bases, k, counter);
    assert g[at := g[at].(counter := counter - 1)] == Record(at, bases, k, counter - 1);
  }

  /**
   * Reference counting: three allocator objects (the original and two
   * copies) and four references to them share one chain. Seven blocks of
   * just over half a chunk make the chunk count 1, 2, ..., 7 whichever
   * object allocates; both counters read 3; freeing the four newest blocks
   * leaves three chunks; a fourth copy raises the count to 4 and deleting
   * it brings it back to 3.
   */
  lemma ReferenceCountingScenario(at: nat, bases: seq<nat>)
    requires |bases| == 7 && forall i :: 0 <= i < 7 ==> NULL < bases[i]
    ensures var (g1, h1) := Construct(map[], at);
            var (g2, a1) := AllocateVia(g1, h1, 1, OVER_HALF, bases[0]);
            var (g3, h2) := Copy(g2, h1);
            var (g4, a2) := AllocateVia(g3, h2, 1, OVER_HALF, bases[1]);
            var (g5, h3) := Copy(g4, h1);
            var (g6, a3) := AllocateVia(g5, h3, 1, OVER_HALF, bases[2]);
            var (g7, a4) := AllocateVia(g6, h2, 1, OVER_HALF, bases[3]);
            var (g8, a5) := AllocateVia(g7, h1, 1, OVER_HALF, bases[4]);
            var (g9, a6) := AllocateVia(g8, h2, 1, OVER_HALF, bases[5]);
            var (g10, a7) := AllocateVia(g9, h2, 1, OVER_HALF, bases[6]);
            && ChunkCountOf(g4, h2) == 2 && ChunkCountOf(g6, h3) == 3 && ChunkCountOf(g7, h2) == 4
            && ChunkCountOf(g8, h1) == 5 && ChunkCountOf(g9, h2) == 6 && ChunkCountOf(g10, h2) == 7
            && ReferenceCount(g10, h1) == 3 && ReferenceCount(g10, h2) == 3
            && var g11 := DeallocateVia(g10, h2, bases[6], 1, OVER_HALF);
               var g12 := DeallocateVia(g11, h2, bases[5], 1, OVER_HALF);
               var g13 := DeallocateVia(g12, h1, bases[4], 1, OVER_HALF);
               var g14 := DeallocateVia(g13, h2, bases[3], 1, OVER_HALF);
               var (g15, h4) := Copy(g14, h1);
               var g16 := Destroy(g15, h4);
               && ChunkCountOf(g14, h1) == 3 && ReferenceCount(g14, h1) == 3
               && ReferenceCount(g15, h4) == 4 && ReferenceCount(g15, h1) == 4
               && ReferenceCount(g16, h1) == 3
  {
    var h := Handle(at);
    assert Construct(map[], at) == (Record(at, bases, 0, 1), h);
    AllocateViaStep(at, bases, 0, 1);
    CopyStep(at, bases, 1, 1);
    AllocateViaStep(at, bases, 1, 2);
    CopyStep(at, bases, 2, 2);
    AllocateViaStep(at, bases, 2, 3);
    AllocateViaStep(at, bases, 3, 3);
    AllocateViaStep(at, bases, 4, 3);
    AllocateViaStep(at, bases, 5, 3);
    AllocateViaStep(at, bases, 6, 3);
    DeallocateViaStep(at, bases, 7, 3);
    DeallocateViaStep(at, bases, 6, 3);
    DeallocateViaStep(at, bases, 5, 3);
    DeallocateViaStep(at, bases, 4, 3);
    CopyStep(at, bases, 3, 3);
    DestroyStep(at, bases, 3, 4);
  }
}

=== FILE: vector_ops.dfy ===
/**
 * Integer vector algebra of vector_ops.h: `reverse`, unary and binary `+`
 * and `-`, the dot product `*`, the cross product `%`, and the bitwise `|`
 * and `&` on `vector<int>`. Vectors are sequences; the element type is
 * `int` without overflow, and `bv32` for the bitwise operators. The binary
 * operators walk `a` and read `b` at the same positions, so they need `b`
 * to be at least as long as `a`; the result has the length of `a`.
 */
module VectorOps {

  /** `reverse`: the elements in the opposite order. */
  function Reverse(v: seq<int>): (r: seq<int>)
    ensures |r| == |v|
    ensures forall i :: 0 <= i < |v| ==> r[i] == v[|v| - 1 - i]
  {
    if |v| == 0 then [] else Reverse(v[1..]) + [v[0]]
  }

  /** Unary `+`: an equal copy. */
  function Plus(v: seq<int>): (r: seq<int>)
    ensures r == v
  {
    v[..]
  }

  /** Unary `-`: every element negated. */
  function Neg(v: seq<int>): (r: seq<int>)
    ensures |r| == |v|
    ensures forall i :: 0 <= i < |v| ==> r[i] == -v[i]
  {
    if |v| == 0 then [] else [-v[0]] + Neg(v[1..])
  }

  /** Binary `+`: element-wise sums over the positions of `a`. */
  function Add(a: seq<int>, b: seq<int>): (r: seq<int>)
    requires |b| >= |a|
    ensures |r| == |a|
    ensures forall i :: 0 <= i < |a| ==> r[i] == a[i] + b[i]
  {
    if |a| == 0 then [] else [a[0] + b[0]] + Add(a[1..], b[1..])
  }

  /** Binary `-`: element-wise differences over the positions of `a`. */
  function Sub(a: seq<int>, b: seq<int>): (r: seq<int>)
    requires |b| >= |a|
    ensures |r| == |a|
    ensures forall i :: 0 <= i < |a| ==> r[i] == a[i] - b[i]
  {
    if |a| == 0 then [] else [a[0] - b[0]] + Sub(a[1..], b[1..])
  }

  /** The sum of `a[i] * b[i]` over the first `n` positions. */
  function DotPrefix(a: seq<int>, b: seq<int>, n: nat): int
    requires n <= |a| && n <= |b|
  {
    if n == 0 then 0 else DotPrefix(a, b, n - 1) + a[n - 1] * b[n - 1]
  }

  /** `*`: the products accumulated from the first position on, starting at 0. */
  method Dot(a: seq<int>, b: seq<int>) returns (r: int)
    requires |b| >= |a|
    ensures r == DotPrefix(a, b, |a|)
    ensures |a| == 0 ==> r == 0
  {
    r := 0;
    var i := 0;
    while i < |a|
      invariant i <= |a|
      invariant r == DotPrefix(a, b, i)
    {
      r := r + a[i] * b[i];
      i := i + 1;
    }
  }

  /** `%`: the cross product of the first three coordinates. */
  function Cross(a: seq<int>, b: seq<int>): (r: seq<int>)
    requires |a| >= 3 && |b| >= 3
    ensures |r| == 3
  {
    [a[1] * b[2] - a[2] * b[1],
     a[2] * b[0] - a[0] * b[2],
     a[0] * b[1] - a[1] * b[0]]
  }

  /** The `transform` of two `bv32` vectors by `op`, over the positions of `a`. */
  function Zip(op: (bv32, bv32) -> bv32, a: seq<bv32>, b: seq<bv32>): (r: seq<bv32>)
    requires |b| >= |a|
    ensures |r| == |a|
    ensures forall i :: 0 <= i < |a| ==> r[i] == op(a[i], b[i])
  {
    if |a| == 0 then [] else [op(a[0], b[0])] + Zip(op, a[1..], b[1..])
  }

  /** `|`: element-wise bitwise or. */
  function Or(a: seq<bv32>, b: seq<bv32>): (r: seq<bv32>)
    requires |b| >= |a|
    ensures |r| == |a|
    ensures forall i :: 0 <= i < |a| ==> r[i] == a[i] | b[i]
  {
    Zip((x, y) => x | y, a, b)
  }

  /** `&`: element-wise bitwise and. */
  function And(a: seq<bv32>, b: seq<bv32>): (r: seq<bv32>)
    requires |b| >= |a|
    ensures |r| == |a|
    ensures forall i :: 0 <= i < |a| ==> r[i] == a[i] & b[i]
  {
    Zip((x, y) => x & y, a, b)
  }

  // ---------------------------------------------------------------------
  // Algebraic laws
  // ---------------------------------------------------------------------

  /** Reversing twice gives the vector back. */
  lemma ReverseInvolution(v: seq<int>)
    ensures Reverse(Reverse(v)) == v
  {
  }

  /** Reversing keeps the elements and their multiplicities. */
  lemma {:induction false} ReversePermutes(v: seq<int>)
    ensures multiset(Reverse(v)) == multiset(v)
  {
    if |v| > 0 {
      ReversePermutes(v[1..]);
      assert v == [v[0]] + v[1..];
    }
  }

  lemma NegInvolution(v: seq<int>)
    ensures Neg(Neg(v)) == v
  {
  }

  /** `a + (-a)` is the zero vector. */
  lemma AddNeg(a: seq<int>)
    ensures forall i :: 0 <= i < |a| ==> Add(a, Neg(a))[i] == 0
  {
  }

  /** `a - b` is `a + (-b)`. */
  lemma SubIsAddNeg(a: seq<int>, b: seq<int>)
    requires |b| >= |a|
    ensures Sub(a, b) == Add(a, Neg(b))
  {
  }

  /** Subtracting what was added gives `a` back. */
  lemma SubAdd(a: seq<int>, b: seq<int>)
    requires |b| >= |a|
    ensures Sub(Add(a, b), b) == a
  {
  }

  lemma AddCommutes(a: seq<int>, b: seq<int>)
    requires |a| == |b|
    ensures Add(a, b) == Add(b, a)
  {
  }

  lemma {:induction false} DotPrefixSymmetric(a: seq<int>, b: seq<int>, n: nat)
    requires n <= |a| && n <= |b|
    ensures DotPrefix(a, b, n) == DotPrefix(b, a, n)
  {
    if n > 0 {
      DotPrefixSymmetric(a, b, n - 1);
    }
  }

  /** The dot product distributes over `+` in its first argument. */
  lemma {:induction false} DotPrefixAdd(a: seq<int>, b: seq<int>, c: seq<int>, n: nat)
    requires |b| >= |a| && n <= |a| && n <= |c|
    ensures DotPrefix(Add(a, b), c, n) == DotPrefix(a, c, n) + DotPrefix(b, c, n)
  {
    if n > 0 {
      DotPrefixAdd(a, b, c, n - 1);
      var k := n - 1;
      Distributes(a[k], b[k], c[k]);
    }
  }

  lemma Distributes(x: int, y: int, z: int)
    ensures (x + y) * z == x * z + y * z
  {
  }

  /** A vector dotted with itself is never negative. */
  lemma {:induction false} DotPrefixSquare(a: seq<int>, n: nat)
    requires n <= |a|
    ensures DotPrefix(a, a, n) >= 0
  {
    if n > 0 {
      DotPrefixSquare(a, n - 1);
      SquareNonNegative(a[n - 1]);
    }
  }

  lemma SquareNonNegative(x: int)
    ensures x * x >= 0
  {
    if x < 0 {
      assert x * x == (-x) * (-x);
    }
  }

  /** The cross product is orthogonal to both of its arguments. */
  lemma CrossOrthogonal(a: seq<int>, b: seq<int>)
    requires |a| >= 3 && |b| >= 3
    ensures DotPrefix(Cross(a, b), a, 3) == 0
    ensures DotPrefix(Cross(a, b), b, 3) == 0
  {
    var c := Cross(a, b);
    DotPrefix3(c, a);
    DotPrefix3(c, b);
    TripleProductZero(a[0], a[1], a[2], b[0], b[1], b[2], c[0], c[1], c[2]);
  }

  lemma DotPrefix3(c: seq<int>, a: seq<int>)
    requires |c| >= 3 && |a| >= 3
    ensures DotPrefix(c, a, 3) == c[0] * a[0] + c[1] * a[1] + c[2] * a[2]
  {
    assert DotPrefix(c, a, 1) == c[0] * a[0];
    assert DotPrefix(c, a, 2) == c[0] * a[0] + c[1] * a[1];
  }

  /** The scalar triple products `a . (a x b)` and `b . (a x b)` vanish. */
  lemma TripleProductZero(a0: int, a1: int, a2: int, b0: int, b1: int, b2: int, c0: int, c1: int, c2: int)
    requires c0 == a1 * b2 - a2 * b1 && c1 == a2 * b0 - a0 * b2 && c2 == a0 * b1 - a1 * b0
    ensures c0 * a0 + c1 * a1 + c2 * a2 == 0
    ensures c0 * b0 + c1 * b1 + c2 * b2 == 0
  {
  }

  /** Swapping the arguments negates the cross product. */
  lemma CrossAntiCommutes(a: seq<int>, b: seq<int>)
    requires |a| >= 3 && |b| >= 3
    ensures Cross(b, a) == Neg(Cross(a, b))
  {
  }

  /** A vector crossed with itself is zero. */
  lemma CrossSelf(a: seq<int>)
    requires |a| >= 3
    ensures Cross(a, a) == [0, 0, 0]
  {
  }

  /** `a | (a & b)` is `a`, and `a & (a | b)` is `a`. */
  lemma Absorption(a: seq<bv32>, b: seq<bv32>)
    requires |b| >= |a|
    ensures Or(a, And(a, b)) == a
    ensures And(a, Or(a, b)) == a
  {
  }

  lemma Idempotent(a: seq<bv32>)
    ensures Or(a, a) == a && And(a, a) == a
  {
  }
}

=== FILE: wrappers.dfy ===
/** Failure-compatible wrappers shared by the allocator modules. */
module Wrappers {

  datatype Option<+T> = None | Some(value: T)

  /** The outcome of an operation that can raise an exception in the source. */
  datatype Result<+R, +E> = Success(value: R) | Failure(error: E)
}
